=== FILE: README.md ===
# django-mssql-arm backend core, in Dafny

A model of the core of `mssql_arm`, a Django database backend for Microsoft
SQL Server. The backend runs over `pymssql`/ODBC and targets ARM hosts. The
core is two files:

- `mssql_arm/base.py`. It holds:
  - the ODBC connection-string encoder;
  - `DatabaseWrapper`: its static tables, the collation rewrite, the legacy
    temporal override for SQL Server 2005, connection parameters and
    validation, the transient-error retry loop, connection set-up,
    savepoints, autocommit, constraint checking and network-error recovery;
  - the row decoders;
  - `CursorWrapper`: SQL and parameter formatting, `execute`,
    `executemany`, and the fetches, whose byte fields it decodes.
- `mssql_arm/fields.py`. It holds the custom model fields: their type tags,
  the normaliser for SQL Server's offset timestamps, and the `None`
  handling of `BigAutoField` and `DateTimeOffsetField`.

## Layout

| file | module | what |
|---|---|---|
| `text.dfy` | `Text` | Python string operations on `seq<char>`: `startswith`, `in`, `replace`, `strip`, `join`, `str(int)`, `int(str)` |
| `values.dfy` | `PyValues` | Python values (`None`, `bool`, `int`, `str`, `bytes`), truthiness, `int()`, the exceptions the core raises |
| `connstring.dfy` | `ConnString` | `encode_value`, `encode_connection_string`, the `cstr_parts` assembly, and a decoder proving the encoding round-trips |
| `rowdecode.dfy` | `RowDecode` | `row_decode_str`, `row_decode_int` (`int.from_bytes`), and `row_decode_all` as a loop |
| `tables.dfy` | `TypeTables` | `data_types`, `data_types_suffix`, `data_type_check_constraints`, `operators`, the collation loop, the 2005 override, `_sql_server_versions`, the engine-edition tests |
| `connect.dfy` | `Connect` | `get_connection_params`, the validation and retry loop of `get_new_connection`, as written and corrected |
| `backend.dfy` | `Backend` | class `DatabaseWrapper` with the state its methods update |
| `cursors.dfy` | `Cursors` | class `CursorWrapper` over a log of native cursor calls; `format_row` works in place on an `array` |
| `fields.dfy` | `Fields` | the custom fields of `fields.py` |

Some behaviour comes from outside the core: the driver, the operating
system, Django's `DatabaseOperations`, introspection, `smart_str`,
`bytes.decode`, `validate_ipv46_address` and `str.isprintable`. Each of
these is a parameter of the member that needs it. How the driver behaves is
a parameter too: what `connect` returns on each attempt, which exception a
native call raises, and the rows it returns. Statements sent through the
wrapper's cursors are appended to `DatabaseWrapper.log`. The server's
`@@TRANCOUNT` is the field `DatabaseWrapper.tranCount`. Calls made on the
native cursor are appended to `CursorWrapper.calls`.

The model follows the code where it differs from what its names, messages
or docstrings suggest:

- `_set_autocommit(True)` is applied only while `@@TRANCOUNT > 0`
  (base.py:620-623), that is, only while a transaction is open.
- `row_decode_all` falls back to `row_decode_int` for every value that has
  no `decode`, so values that are not bytes pass through unchanged rather
  than raising `AttributeError`.
- The IP-address check of `get_new_connection` runs whether or not a port is
  set, although its message speaks of "When using DATABASE PORT".
- `LegacyTimeField` has column type `time` in `data_types`, although its
  docstring says `datetime`.

## Model

| member | source | states |
|---|---|---|
| ConnString.EncodeValueSpec | mssql_arm/base.py:61-67 | `encode_value` leaves a value alone exactly when it has no `;` and does not begin, after spaces, with `{`; otherwise it wraps it in braces with `}` doubled, and stripping the braces and un-doubling gives the value back |
| ConnString.BraceFirstNeedsBraces | mssql_arm/base.py:65 | a value beginning with `{` is always wrapped |
| ConnString.EncodeParts | mssql_arm/base.py:47-67 | encoding a mapping succeeds exactly when every value is a `str`; any other value raises `TypeError` at `';' in v` |
| ConnString.EncodeShape | mssql_arm/base.py:55-58 | one `KEY=value` segment per pair, in order, joined by `;`; no pairs give the empty string |
| ConnString.DecodeEncode | mssql_arm/base.py:47-67 | reading back an encoded connection string gives the same pairs in the same order, for any values, when no key holds `=` |
| ConnString.EncodeExample | mssql_arm/base.py:55-67 | `A=1;B={x;y}` for the pairs `A=1`, `B=x;y` |
| ConnString.ConnectionString | mssql_arm/base.py:358-364 | the connection string is built exactly when every part is a `str` |
| ConnString.CstrPartsKeys | mssql_arm/base.py:325-356 | every entry of `cstr_parts`, each key at most once: DSN when a DSN is given, otherwise DRIVER and the server; for a Microsoft driver SERVER is the host, with `,port` when there is a port; under `host_is_server` SERVER is the host and PORT the port when there is one; otherwise SERVERNAME is the host; UID exactly when a user is given, with PWD unless `Authentication=ActiveDirectoryInteractive` is in the extra parameters; without a user, Trusted_Connection (its setting, default `yes`) exactly for a Microsoft driver without `Authentication=ActiveDirectoryMsi`, and `Integrated Security=SSPI` otherwise; DATABASE always; `MARS_Connection=yes` exactly for a Microsoft driver on Windows |
| ConnString.HostIsServerPortRaises | mssql_arm/base.py:336-339 | with no DSN, a non-Microsoft driver, `host_is_server` and a non-zero port, PORT holds an `int` and building the connection string raises `TypeError` |
| ConnString.CorrectedPartsEncode | mssql_arm/base.py:325-364 | with the port written as text, PORT holds `str(port)` exactly in the `host_is_server` case, and the string is built whenever every setting that ends up in it is a `str` |
| PyValues.PyInt | mssql_arm/base.py:303-306 | `int()` returns an integer unchanged, raises `TypeError` on `None`, and raises only `TypeError` or `ValueError` |
| PyValues.PyIntOfDecimal | mssql_arm/base.py:304 | `int()` reads back the decimal text of every integer |
| RowDecode.FromBytesRoundTrip | mssql_arm/base.py:458-465 | `int.from_bytes(unsigned)` in either byte order is below `256^len` and writes back to the same bytes |
| RowDecode.RowDecodeInt | mssql_arm/base.py:458-465 | `row_decode_int` turns bytes into an unsigned integer that re-encodes to them; other values pass unchanged |
| RowDecode.RowDecodeStr | mssql_arm/base.py:449-456 | `row_decode_str` gives the UTF-8 text of valid bytes; everything else passes unchanged |
| RowDecode.DecodeField | mssql_arm/base.py:437-445 | a byte field becomes text exactly when it is valid UTF-8 and not a non-printable value of width 1, 2, 4 or 8; otherwise it becomes the integer that re-encodes to it; non-bytes pass unchanged |
| RowDecode.RowDecodeAll | mssql_arm/base.py:435-447 | the loop builds a row of the same length whose every field is the decoded field |
| RowDecode.ShortBinaryExample | mssql_arm/base.py:440-441 | two non-printable bytes `01 02` decode, little-endian, to 513 |
| TypeTables.TablesConsistent | mssql_arm/base.py:44-131 | every suffix and check constraint belongs to a known column type, and every auto field type has the `IDENTITY (1, 1)` suffix |
| TypeTables.CollateOperators | mssql_arm/base.py:228-237 | the collation loop keeps the operator keys and maps each template to its collated form |
| TypeTables.CollationOnClassOperators | mssql_arm/base.py:228-237 | on the class operators, the collation changes exactly the six LIKE lookups, each by appending ` COLLATE <collation>` |
| TypeTables.LegacyDataTypes | mssql_arm/base.py:250-253 | the 2005 override sets DateField, DateTimeField and TimeField to `datetime` and leaves every other entry alone |
| TypeTables.LegacyOverrideChanges | mssql_arm/base.py:249-253 | on a table whose three temporal entries exist and are not `datetime`, the override keeps the keys and changes exactly those three, each to `datetime` |
| TypeTables.ClassTableTemporalEntries | mssql_arm/base.py:87-115 | the class table's DateField, DateTimeField and TimeField are `date`, `datetime2` and `time` |
| TypeTables.SqlServerVersion | mssql_arm/base.py:545-551 | a successful version lookup reads text and gives one of the known release years; bytes raise `TypeError` at `split('.')`, and any other value that is not text raises `AttributeError` |
| TypeTables.VersionOfMajor | mssql_arm/base.py:546-550 | `M.xxx` yields a release year exactly when 9 <= M <= 15, that year, and `NotSupportedError(M)` otherwise |
| TypeTables.LegacyOnlyForMajorNine | mssql_arm/base.py:180-188 | a server reporting `M.xxx` looks up a release of 2005 or older, and so gets the legacy column types, exactly when `M` is 9 |
| TypeTables.VersionLookupOrdered | mssql_arm/base.py:180-188 | two successful lookups of different major versions give release years in the same order |
| Connect.GetConnectionParams | mssql_arm/base.py:257-266 | an empty NAME raises `ImproperlyConfigured`, NAME `None` becomes `master`, and nothing else changes |
| Connect.ValidateTarget | mssql_arm/base.py:281-306 | validation succeeds exactly when NAME is truthy, the host (with `localhost` as `127.0.0.1`) is an IP address and `int(PORT)` succeeds; each failure gives its own message in source order: `''` the NAME message, any other falsy NAME "You need to specify a DATABASE NAME", a host that is not an IP address the host message, a non-numeric port the port message; a missing port's `TypeError` escapes |
| Connect.MatchTransient | mssql_arm/base.py:389-402 | the search loop finds a match exactly when some transient error number occurs in the error text |
| Connect.RetryFromSpec | mssql_arm/base.py:372-404 | the retry policy: every retried attempt failed transiently; the number of sleeps never exceeds the budget; a connection comes from the deciding attempt; a re-raised error is not transient or met an exhausted budget |
| Connect.RetryExhausts | mssql_arm/base.py:396-404 | when every attempt fails transiently, the loop sleeps exactly `retries` times and re-raises attempt `retries` |
| Connect.OnConnectFailure | mssql_arm/base.py:395-404 | the `except` block as written: a retried failure counts and sets the flag, a transient failure over budget clears it, a non-transient failure leaves both untouched |
| Connect.OnConnectFailureCorrected | mssql_arm/base.py:395-404 | with the flag cleared first, the loop retries exactly when the failure is transient and within budget, and counts exactly the retries |
| Connect.StickyRetryFlag | mssql_arm/base.py:389-404 | the `except` block alone, as written: after a retried failure, a non-transient failure leaves the state as it was, flag set, so the loop continues; corrected, it is raised |
| Connect.StickyRetryFlagExample | mssql_arm/base.py:389-404 | the `except` block alone, on error 40613 then login failure 18456 with 5 retries: as written it keeps the loop going, corrected it raises |
| Connect.StickyLoopNeverEnds | mssql_arm/base.py:372-404 | with only the parameter rebuild fixed, error 40613 followed by login failure 18456 on every later attempt keeps the loop as written running for any number of iterations, without a sleep or a `raise`; the corrected loop raises 18456 after one sleep |
| Connect.StickyLoopKeepsRunning | mssql_arm/base.py:372-404 | once a retry has set the flag, every further refused login leaves the loop as written running |
| Connect.ConnectWithRetries | mssql_arm/base.py:372-404 | the corrected loop ends as the retry policy says, with one sleep of `backoff_time` per retry |
| Connect.ConnectAsWritten | mssql_arm/base.py:375-393 | the loop as written: the first attempt decides; a transient first failure sleeps once and then raises `AttributeError` |
| Connect.AsWrittenLosesRetry | mssql_arm/base.py:378-393 | a transient first failure followed by a successful second attempt connects under the policy, but raises `AttributeError` as written |
| Connect.RetryExample | mssql_arm/base.py:375-404 | error 40613 then a connection: `AttributeError` after one sleep as written, the connection after one sleep corrected |
| Connect.GetNewConnection | mssql_arm/base.py:268-407 | with both corrections applied (the port as text, a driver call on every iteration): validation errors and connection-string errors are raised before any attempt; otherwise the connection attempts follow the retry policy, each sleep lasting `backoff_time` |
| Connect.GetNewConnectionAsWritten | mssql_arm/base.py:268-407 | as written: validation errors and connection-string errors (among them the `int` PORT) are raised before any attempt; otherwise the first attempt decides, and a transient first failure sleeps once and raises `AttributeError` |
| Connect.AsWrittenHostIsServerRaises | mssql_arm/base.py:325-364 | as written, validated settings naming a non-Microsoft driver with `host_is_server` and a port raise `TypeError` before the driver is called |
| Connect.StringSettingsReachDriver | mssql_arm/base.py:325-364 | with validated string settings the corrected connection string is always built |
| Backend.ForeachStatementsFill | mssql_arm/base.py:571-576 | for a template `pre %s post` with no other `%`, one statement per table, in table order, each `pre`, the table's quoted name, `post` |
| Backend.ConstraintStatementsText | mssql_arm/base.py:630-641 | the statements for each table are `ALTER TABLE <quoted name> WITH CHECK CHECK CONSTRAINT ALL`, `… NOCHECK CONSTRAINT ALL` and `… WITH NOCHECK CHECK CONSTRAINT ALL` |
| Backend.ForTableFillsPlaceholder | mssql_arm/base.py:576 | `sql % quote_name(t)` on a template with one `%s` puts the quoted name in its place and leaves the rest |
| Backend.LegacyOverrideIdempotent | mssql_arm/base.py:249-253 | applying the 2005 override twice is applying it once |
| Backend.DatabaseWrapper.constructor | mssql_arm/base.py:203-237 | `driver_needs_utf8` forces `utf-8`, otherwise `driver_charset`; with a collation every LIKE operator is collated, without one the class operators are kept; no connection, no rollback mark and a transaction count of 0 |
| Backend.DatabaseWrapper.EnsureConnection | mssql_arm/base.py:242-255 | only a new connection on a 2005 server gets the legacy column types; a new connection also clears the rollback mark, as Django's `connect()` does, and brings its own `@@TRANCOUNT`; a failing version lookup propagates; an open connection is left as it is, rollback mark and count included |
| Backend.DatabaseWrapper.OnError | mssql_arm/base.py:583-592 | a network error code clears the connection and waits unless `close` fails; if the connection was open inside an atomic block, Django's `close()` sets the rollback mark, even when closing fails; any other error changes nothing |
| Backend.LostConnectionInSavepoint | mssql_arm/base.py:583-592 | a savepoint, a network error inside the atomic block, a reconnect and a rollback to the savepoint: the error marks the block for rollback, the reconnect clears the mark, and the rollback is sent exactly when the new connection's own `@@TRANCOUNT` is positive |
| Backend.DatabaseWrapper.Savepoint | mssql_arm/base.py:594-600 | reads `@@TRANCOUNT`, starts a transaction when none is open, creates the savepoint; afterwards a transaction is open |
| Backend.DatabaseWrapper.SavepointCommit | mssql_arm/base.py:602-608 | sends nothing and changes nothing |
| Backend.DatabaseWrapper.SavepointRollbackTo | mssql_arm/base.py:610-616 | reads `@@TRANCOUNT` and sends the rollback only inside a transaction |
| Backend.DatabaseWrapper.SetAutocommit | mssql_arm/base.py:618-628 | turning autocommit off always applies; turning it on applies only while `@@TRANCOUNT > 0`; with no connection, turning it on raises `AttributeError` and turning it off is silently ignored |
| Backend.DatabaseWrapper.ExecuteForeach | mssql_arm/base.py:571-576 | the loop sends exactly the per-table statements, on the given tables or on all of them |
| Backend.DatabaseWrapper.CheckConstraints | mssql_arm/base.py:630-632 | the log grows by `ALTER TABLE <quoted name> WITH CHECK CHECK CONSTRAINT ALL` for each table, in order |
| Backend.DatabaseWrapper.DisableConstraintChecking | mssql_arm/base.py:634-637 | unless a rollback is pending, the log grows by `ALTER TABLE <quoted name> NOCHECK CONSTRAINT ALL` for each table; the result says whether it ran |
| Backend.DatabaseWrapper.EnableConstraintChecking | mssql_arm/base.py:639-641 | unless a rollback is pending, the log grows by `ALTER TABLE <quoted name> WITH NOCHECK CHECK CONSTRAINT ALL` for each table |
| Backend.DatabaseWrapper.InitConnectionState | mssql_arm/base.py:409-433 | a version held as bytes raises `TypeError` and any other non-text value `AttributeError`, before anything is sent; `is_sql_azure` is set only when the version's leading part is an integer; sends the isolation level if given, then the date settings, then the clock query for the server's version; a clock returned as text raises `ImproperlyConfigured` |
| Cursors.FormatSql | mssql_arm/base.py:675-682 | text has every `%%` shortened to `%`, losing one character each; a non-text query raises `AttributeError` |
| Cursors.FormatSqlUndoesDoubling | mssql_arm/base.py:681 | a query whose `%` were doubled comes back as it was |
| Cursors.FormatSqlPlain | mssql_arm/base.py:681 | a query without `%%` is unchanged |
| Cursors.FormatParam | mssql_arm/base.py:687-706 | no boolean reaches the driver: `True`/`False` become 1/0, text goes through `smart_str` exactly when the charset is set and not empty (`''` is false), everything else is unchanged |
| Cursors.FormatParamIdempotent | mssql_arm/base.py:687-706 | without a charset, or with an empty one, formatting a parameter twice is formatting it once |
| Cursors.FormatRowValuesSpec | mssql_arm/base.py:742-754 | a formatted row keeps its length; only byte fields change, each to its decoded text; without a charset, or with an empty one, the row is unchanged; it fails only on a byte field that does not decode |
| Cursors.FormatRows | mssql_arm/base.py:739-740 | every row formatted in order, or the error of a row that fails |
| Cursors.CursorWrapper.constructor | mssql_arm/base.py:650-656 | active, the connection's charset, empty last statement and parameters, no native calls |
| Cursors.CursorWrapper.Close | mssql_arm/base.py:658-661 | closes the native cursor on the first call only; it is then closed exactly once |
| Cursors.CursorWrapper.FormatParams | mssql_arm/base.py:684-708 | the loop formats each parameter in order; `None` gives no parameters |
| Cursors.CursorWrapper.Execute | mssql_arm/base.py:710-725 | remembers the statement; formats the SQL and then the parameters; makes one native call; a `Database.Error` or `MSSQLDatabaseException` goes to `_on_error` and is raised again; on the wrapper, a network code then clears the connection, counts one wait unless `close` fails, and sets the rollback mark when an open connection is closed inside an atomic block; nothing else of the wrapper changes |
| Cursors.CursorWrapper.ExecuteMany | mssql_arm/base.py:727-737 | no call for an empty list; otherwise one native call with every parameter set formatted; only `Database.Error` goes to `_on_error`, with the same effect on the wrapper as in `execute`, and nothing else of the wrapper changes |
| Cursors.CursorWrapper.FormatRow | mssql_arm/base.py:742-754 | in place, the row becomes its formatted values; on a byte field that does not decode, the fields before it are already replaced and the rest are untouched |
| Cursors.CursorWrapper.FetchOne | mssql_arm/base.py:756-764 | the row, if any, formatted, and the native row array then holds the formatted values; on a byte field that does not decode, the fields before it are already replaced and the rest are untouched; without MARS, `nextset()` follows |
| Cursors.CursorWrapper.FetchMany | mssql_arm/base.py:766-767 | the driver's rows, formatted |
| Cursors.CursorWrapper.FetchAll | mssql_arm/base.py:769-770 | the driver's rows, formatted |
| Fields.InternalTypesHaveColumns | mssql_arm/fields.py:29-208 | every custom field's tag has a column type: `date`, `datetime2`, `time` for the new fields, `datetime` for the legacy date fields, `time` for `LegacyTimeField`, `bigint` and identity for `BigAutoField` |
| Fields.LegacyOverrideKeepsCustomFields | mssql_arm/base.py:249-253 | the 2005 override leaves every custom field's column type alone |
| Fields.ConvertMicrosoftDateToIsoformat | mssql_arm/fields.py:77-80 | non-text values are unchanged; text shrinks by one character per replaced ` +` and ` -` |
| Fields.ConvertWithoutSpacedSign | mssql_arm/fields.py:77-80 | text without a space before a sign is unchanged |
| Fields.ConvertSpacedOffset | mssql_arm/fields.py:77-80 | `<timestamp> <sign><offset>` loses exactly the space before the sign |
| Fields.ConvertExample | mssql_arm/fields.py:77-80 | `2020-01-01 10:00 +01:00` becomes `2020-01-01 10:00+01:00` |
| Fields.BigAutoToPython | mssql_arm/fields.py:52-59 | `None` stays `None`; a value `int()` accepts becomes that integer; anything else is a `ValidationError` |
| Fields.BigAutoDbPrepValue | mssql_arm/fields.py:61-64 | `None` stays `None`; otherwise `int(value)`, whose `TypeError`/`ValueError` propagate |
| Fields.BigAutoPrepAgreesWithToPython | mssql_arm/fields.py:52-64 | the stored value and the value read back agree: both accept the same inputs and give the same integer |
| Fields.BigAutoToPythonOfText | mssql_arm/fields.py:52-64 | the decimal text of an integer is read as that integer by both |
| Fields.DateTimeOffsetDbPrepValue | mssql_arm/fields.py:139-144 | `None` after preparation stays `None`; anything else becomes exactly the text `isoformat()` returns, or raises the error it raises |

## Findings

| source | as written | input that shows it | evidently intended | confidence | as-written member | corrected member |
|---|---|---|---|---|---|---|
| mssql_arm/base.py:374-404 | `need_to_retry` is set on a retried transient failure and never cleared by a failure that matches no transient number, so that failure is neither raised nor slept on, and the loop calls the driver again. As written this is hidden behind the next row, whose `AttributeError` ends the loop first; it shows once that is fixed | with the next row fixed: error `40613`, then login failure `18456` on every later attempt, `connection_retries` 5; the loop never ends | every failure decides afresh; a non-transient failure is raised | not executed | Connect.StickyLoopNeverEnds | Connect.OnConnectFailureCorrected |
| mssql_arm/base.py:378-393 | the first iteration rebinds `conn_params` to a dictionary with lower-case keys, so the retry's `conn_params['PORT']` raises `KeyError('PORT')`; the handler's `args[0][1].decode()` then raises `AttributeError` on the text `'O'` | error `40613` on the first attempt, a connection on the second | a transient failure is retried with the same parameters | not executed | Connect.ConnectAsWritten | Connect.ConnectWithRetries |
| mssql_arm/base.py:336-339 | with `host_is_server`, a non-Microsoft driver and a port, `cstr_parts['PORT']` is the `int` from `int(port)`, and `encode_value` raises `TypeError` on `';' in v` | driver `FreeTDS`, `host_is_server` True, PORT `1433`, no DSN | PORT written as text, `PORT=1433` | not executed | ConnString.HostIsServerPortRaises | ConnString.CorrectedPartsEncode |

`Connect.GetNewConnectionAsWritten` puts the as-written pieces together;
`Connect.GetNewConnection` is built from the corrected ones.

## Left out

- `mssql_arm/consts.py`, `setup.py` and the test application are not part of this model.
- `sql_server_data` and the properties read from it (`SERVERPROPERTY` queries, `@@VERSION`) are not modelled. Their results are parameters: `productVersion`, `engineEdition`, and the version lookup's result.
- Caching is not modelled: `cached_property` and the per-alias version and Azure caches. Each lookup is a fresh value.
- The sharing of `data_types` is not modelled. The 2005 override writes into `DatabaseWrapper.data_types`, the dictionary every instance shares, but each modelled wrapper holds its own copy.
- The float `connection_recovery_interval_msec` and the length of `time.sleep` after a network error are not modelled. Waits are counted (`recoveryWaits`), and retry sleeps are recorded with their `backoff_time`.
- The connection's `timeout`, `unicode_results` and `query_timeout` options are not modelled: nothing in the core reads them before the driver does, and `conn.timeout` at base.py:406 is never reached.
- `get_new_connection` is not modelled as the driver sees it: `conn_params` is rebuilt with lower-case keys for `Database.connect`, and the model keeps only the effect on the retry (the second finding). The connection string it builds is checked and then not used, as in the source.
- Connect.GetNewConnection: is `get_new_connection` with the second and third findings corrected, not as written: with FreeTDS, `host_is_server` and a port it builds a connection string where the source raises `TypeError`, and after a transient failure it retries where the source raises `AttributeError`. `Connect.GetNewConnectionAsWritten` is the code as written.
- Connect.GetNewConnection: takes the error number already extracted from the driver's exception (`args[1]`, or `args[0][1].decode()`). The shapes of pymssql exception arguments are outside the model.
- ConnString.CstrInput: HOST is a string and the `OPTIONS` values are their text. A non-text HOST, or a dictionary passed as `OPTIONS`, is outside the model.
- PyValues.PyInt: reads text as an optionally signed decimal literal. It does not accept the surrounding whitespace or underscores that Python's `int()` does. Any object other than `None`, a boolean, an integer, text or bytes is a `TypeError`, where Python truncates a float or a `Decimal`.
- `format_sql2` is not modelled: nothing calls it.
- Backend.DatabaseWrapper.ExecuteForeach: `sql % quote_name(t)` is modelled as replacing every `%s`, which is Python's `%` only for a template with one `%s` and no other `%`, as the three constraint templates are. For a template with `%%` or two `%s`, Python gives `%` or raises `TypeError`; that is not modelled. The logged statement is the text handed to `CursorWrapper.execute`, before its `%%`-to-`%` step.
- `pattern_esc` and `pattern_ops` are not modelled: they are only read by Django.
- `is_usable`, `create_cursor`, `_get_trancount` as a separate call, `get_system_datetime`, `temporary_connection`, `CursorWrapper.__getattr__` and `__iter__` are not modelled. They delegate to the driver or to Django. Their results appear as parameters, for example `systemDatetime` in `InitConnectionState`.
- `wrap_database_errors` in `_set_autocommit` is not modelled: the modelled errors are not database errors, so it passes them through unchanged.
- The Django conversions of the fields are not modelled: `to_python` of the temporal fields beyond the normaliser, and `get_db_prep_value` of `DateTimeField`, `TimeField`, `LegacyDateTimeField` and `LegacyTimeField`, which call `connection.ops`. Also left out are `BigForeignKey.db_type` and `AutoDecimalField.rel_db_type`, which ask Django's own fields.
- Backend.DatabaseWrapper.OnError: Django's `close()` also sets `closed_in_transaction`, and it returns early once that flag is set. The model assumes that the rollback mark set at that point is still set, so it keeps neither flag.
- Backend.DatabaseWrapper.EnsureConnection: of Django's `connect()`, only the cleared rollback mark and the new connection's transaction count are modelled. Its `set_autocommit` and `init_connection_state` calls are modelled as separate operations and are not composed here. The reset of `in_atomic_block` and the savepoint ids is Django's own state and is not modelled.
- Cursors.CursorWrapper.ExecuteMany: each parameter set is a sequence. A `None` entry in `params_list`, which `format_params` turns into `()`, is outside the model.
- Cursors.CursorWrapper.FetchMany: the driver's rows are given. That at most `chunk` rows come back is the driver's promise and is not stated.
- Cursors.CursorWrapper.FormatRow: works on a mutable row, as the docstring's pyodbc `Row` is. The driver imported is `pymssql`, whose rows are tuples; with a charset and a byte field, the assignment `row[i] = …` then raises `TypeError`, which is not modelled.
- `to_azure_sql_db` is modelled only as its edition test (`TypeTables.ToAzureSqlDb`): nothing in the core reads it.
- Native rows of `fetchmany`/`fetchall` are sequences of values, and the row of `fetchone` is an array. Python tuples (`tuple(row)`) are the same values.
- Integers are unbounded. The driver's column widths and SQL Server's integer ranges play no part in the core.

=== FILE: backend.dfy ===
/**
 * `DatabaseWrapper`: the connection-level state of the adapter and the
 * rules it applies to it (collation-aware operators, the legacy temporal
 * override on a new connection, recovery from network errors, savepoints,
 * autocommit, and constraint checking).
 *
 * The statements the wrapper sends through its cursors are appended to
 * `log`. The server's `@@TRANCOUNT` is the field `tranCount`: the wrapper
 * reads it, and it becomes 1 when `_savepoint` starts a transaction; a
 * new connection brings its own count. Django's `connect()` and `close()`,
 * which `_cursor` and `_on_error` go through, are modelled only for the
 * `needs_rollback` flag they set.
 * `DatabaseOperations` (the savepoint SQL and
 * `quote_name`) and introspection are outside the model, so their
 * statements are symbolic and `quote_name` is a parameter.
 */
module Backend {
  import opened Text
  import opened PyValues
  import opened TypeTables

  /** A statement sent to the server. */
  datatype Stmt =
    | Sql(text: string)
    | StartTransaction          // ops.start_transaction_sql()
    | SavepointCreate(sid: string)    // ops.savepoint_create_sql(sid)
    | SavepointRollback(sid: string)  // ops.savepoint_rollback_sql(sid)

  /** The driver's connection object, as far as the wrapper touches it. */
  datatype DriverConnection = DriverConnection(id: nat, autocommit: bool)

  /** The entries of `OPTIONS` that `__init__` reads. */
  datatype WrapperOptions = WrapperOptions(
    driverNeedsUtf8: bool,          // 'driver_needs_utf8' present
    driverCharset: Option<string>,  // 'driver_charset', default None
    collation: string)              // 'collation', default None (falsy like '')

  const TrancountQuery := "SELECT @@TRANCOUNT"
  const NetworkErrorCodes: seq<Value> := [Str("08S01"), Str("08S02")]
  const ModernTypesUnsupported := "The database driver doesn't support modern datatime types."

  /** `sql % quote_name(table)` for the one-placeholder templates used with it. */
  function ForTable(template: string, quotedTable: string): string
  {
    Replace(template, "%s", quotedTable)
  }

  /** The statements `_execute_foreach` sends: one per table, in order. */
  function ForeachStatements(template: string, tables: seq<string>, quoteName: string -> string): (r: seq<Stmt>)
    ensures |r| == |tables|
    ensures forall i :: 0 <= i < |tables| ==> r[i] == Sql(ForTable(template, quoteName(tables[i])))
  {
    seq(|tables|, i requires 0 <= i < |tables| => Sql(ForTable(template, quoteName(tables[i]))))
  }

  /**
   * For a template `pre + "%s" + post` with no other `%`, the statement for
   * each table is its quoted name between `pre` and `post`.
   */
  lemma ForeachStatementsFill(pre: string, post: string, tables: seq<string>, quoteName: string -> string)
    requires '%' !in pre && '%' !in post
    ensures |ForeachStatements(pre + "%s" + post, tables, quoteName)| == |tables|
    ensures forall i :: 0 <= i < |tables| ==>
      ForeachStatements(pre + "%s" + post, tables, quoteName)[i] == Sql(pre + quoteName(tables[i]) + post)
  {
    NoPlaceholderWithoutPercent(pre);
    NoPlaceholderWithoutPercent(post);
    forall i | 0 <= i < |tables|
      ensures ForeachStatements(pre + "%s" + post, tables, quoteName)[i] == Sql(pre + quoteName(tables[i]) + post)
    {
      ForTableFillsPlaceholder(pre, post, quoteName(tables[i]));
    }
  }

  /** Text without `%` holds no `%s`, not even once a `%` is appended. */
  lemma NoPlaceholderWithoutPercent(s: string)
    requires '%' !in s
    ensures !Contains(s, "%s") && !Contains(s + "%", "%s")
  {
    if Contains(s, "%s") {
      ContainsKeepsChars(s, "%s", 0);
    }
    if Contains(s + "%", "%s") {
      ContainsConcat(s, "%", "%s");
    }
  }

  const AlterTable := "ALTER TABLE "
  const WithCheckAll := " WITH CHECK CHECK CONSTRAINT ALL"
  const NoCheckAll := " NOCHECK CONSTRAINT ALL"
  const WithNoCheckAll := " WITH NOCHECK CHECK CONSTRAINT ALL"

  const CheckConstraintsSql := AlterTable + "%s" + WithCheckAll
  const DisableConstraintsSql := AlterTable + "%s" + NoCheckAll
  const EnableConstraintsSql := AlterTable + "%s" + WithNoCheckAll

  /**
   * The three constraint statements: `ALTER TABLE <quoted name>` followed by
   * `WITH CHECK CHECK`, `NOCHECK` or `WITH NOCHECK CHECK` `CONSTRAINT ALL`.
   */
  lemma ConstraintStatementsText(tables: seq<string>, quoteName: string -> string)
    ensures forall i :: 0 <= i < |tables| ==>
      ForeachStatements(CheckConstraintsSql, tables, quoteName)[i] == Sql(AlterTable + quoteName(tables[i]) + WithCheckAll)
    ensures forall i :: 0 <= i < |tables| ==>
      ForeachStatements(DisableConstraintsSql, tables, quoteName)[i] == Sql(AlterTable + quoteName(tables[i]) + NoCheckAll)
    ensures forall i :: 0 <= i < |tables| ==>
      ForeachStatements(EnableConstraintsSql, tables, quoteName)[i] == Sql(AlterTable + quoteName(tables[i]) + WithNoCheckAll)
  {
    assert '%' !in AlterTable && '%' !in WithCheckAll && '%' !in NoCheckAll && '%' !in WithNoCheckAll;
    ForeachStatementsFill(AlterTable, WithCheckAll, tables, quoteName);
    ForeachStatementsFill(AlterTable, NoCheckAll, tables, quoteName);
    ForeachStatementsFill(AlterTable, WithNoCheckAll, tables, quoteName);
  }

  class DatabaseWrapper {
    var operators: map<string, string>
    var dataTypes: map<string, string>
    var driverCharset: Option<string>
    var supportsMars: bool
    var isSqlAzure: bool
    var connection: Option<DriverConnection>
    var needsRollback: bool
    /** The server's `@@TRANCOUNT` for this connection. */
    var tranCount: nat
    /** Statements sent through the wrapper's cursors. */
    var log: seq<Stmt>
    /** Waits for recovery after a network error. */
    var recoveryWaits: nat

    /** `__init__`: charset choice and the collation rewrite on a copy of the class operators. */
    constructor (opts: WrapperOptions)
      ensures driverCharset == (if opts.driverNeedsUtf8 then Some("utf-8") else opts.driverCharset)
      ensures opts.collation == "" ==> operators == Operators
      ensures operators.Keys == Operators.Keys
      ensures opts.collation != "" ==>
        forall op :: op in Operators ==> op in operators && operators[op] == Collated(Operators[op], opts.collation)
      ensures dataTypes == DataTypes && connection == None && !isSqlAzure && !supportsMars
      ensures !needsRollback && tranCount == 0 && log == [] && recoveryWaits == 0
    {
      isSqlAzure := false;
      supportsMars := false;
      driverCharset := if opts.driverNeedsUtf8 then Some("utf-8") else opts.driverCharset;
      var ops := Operators;
      if opts.collation != "" {
        ops := CollateOperators(Operators, opts.collation);
        CollationOnClassOperators(opts.collation);
      }
      operators := ops;
      dataTypes := DataTypes;
      connection := None;
      needsRollback := false;
      tranCount := 0;
      log := [];
      recoveryWaits := 0;
    }

    /**
     * `_cursor`: when no connection is open, Django's `connect()` clears
     * `needs_rollback` and `newConnection` becomes the connection, whose own
     * `@@TRANCOUNT` is `newTranCount`; then a server of 2005 or older gets
     * the legacy temporal column types. A failed version lookup propagates.
     */
    method EnsureConnection(newConnection: DriverConnection, newTranCount: nat, version: Result<int>)
      returns (err: Option<Error>)
      modifies this
      ensures old(connection).Some? ==> connection == old(connection) && dataTypes == old(dataTypes) && err == None
      ensures old(connection).Some? ==> needsRollback == old(needsRollback) && tranCount == old(tranCount)
      ensures old(connection).None? ==> connection == Some(newConnection)
      ensures old(connection).None? ==> !needsRollback && tranCount == newTranCount
      ensures old(connection).None? ==> err == (if version.Err? then Some(version.error) else None)
      ensures old(connection).None? ==>
        dataTypes == (if version.Ok? && version.value <= 2005 then LegacyDataTypes(old(dataTypes)) else old(dataTypes))
      ensures operators == old(operators) && log == old(log)
      ensures driverCharset == old(driverCharset) && supportsMars == old(supportsMars) && isSqlAzure == old(isSqlAzure)
      ensures recoveryWaits == old(recoveryWaits)
    {
      err := None;
      var newConn := connection.None?;
      if newConn {
        needsRollback := false;
        connection := Some(newConnection);
        tranCount := newTranCount;
        if version.Err? {
          return Some(version.error);
        }
        if version.value <= 2005 {
          dataTypes := LegacyDataTypes(dataTypes);
        }
      }
    }

    /**
     * `_on_error`: only the network error codes `08S01`/`08S02` (as text)
     * close the connection and clear it; the wait is skipped when `close`
     * itself fails. Django's `close()` of an open connection inside an
     * atomic block (`inAtomicBlock`, kept by Django's `atomic()`) marks the
     * transaction for rollback, whether or not closing fails. `tranCount`
     * still describes the closed connection until the next `connect()`.
     */
    method OnError(arg0: Value, inAtomicBlock: bool, closeFails: bool)
      modifies this
      ensures arg0 in NetworkErrorCodes ==> connection == None
      ensures arg0 in NetworkErrorCodes ==> recoveryWaits == old(recoveryWaits) + (if closeFails then 0 else 1)
      ensures arg0 in NetworkErrorCodes ==>
        needsRollback == (old(needsRollback) || (inAtomicBlock && old(connection).Some?))
      ensures arg0 !in NetworkErrorCodes ==>
        connection == old(connection) && recoveryWaits == old(recoveryWaits) && needsRollback == old(needsRollback)
      ensures operators == old(operators) && dataTypes == old(dataTypes) && log == old(log)
      ensures driverCharset == old(driverCharset) && supportsMars == old(supportsMars) && isSqlAzure == old(isSqlAzure)
      ensures tranCount == old(tranCount)
    {
      if arg0 in NetworkErrorCodes {
        if inAtomicBlock && connection.Some? {
          needsRollback := true;
        }
        connection := None;
        if !closeFails {
          recoveryWaits := recoveryWaits + 1;
        }
      }
    }

    /**
     * `_savepoint`: reads the transaction count, starts a transaction when
     * none is open, and creates the savepoint, which is therefore always
     * inside a transaction.
     */
    method Savepoint(sid: string)
      modifies this
      ensures log == old(log) + [Sql(TrancountQuery)]
        + (if old(tranCount) == 0 then [StartTransaction] else []) + [SavepointCreate(sid)]
      ensures tranCount == (if old(tranCount) == 0 then 1 else old(tranCount))
      ensures tranCount > 0
      ensures operators == old(operators) && dataTypes == old(dataTypes) && connection == old(connection)
      ensures driverCharset == old(driverCharset) && supportsMars == old(supportsMars) && isSqlAzure == old(isSqlAzure)
      ensures needsRollback == old(needsRollback) && recoveryWaits == old(recoveryWaits)
    {
      log := log + [Sql(TrancountQuery)];
      var trancount := tranCount;
      if trancount == 0 {
        log := log + [StartTransaction];
        tranCount := 1;
      }
      log := log + [SavepointCreate(sid)];
    }

    /** `_savepoint_commit`: SQL Server has no savepoint release, so nothing is sent. */
    method SavepointCommit(sid: string)
      ensures log == old(log) && tranCount == old(tranCount)
    {
    }

    /** `_savepoint_rollback`: the rollback is sent only inside a transaction. */
    method SavepointRollbackTo(sid: string)
      modifies this
      ensures log == old(log) + [Sql(TrancountQuery)] + (if tranCount > 0 then [SavepointRollback(sid)] else [])
      ensures tranCount == old(tranCount)
      ensures operators == old(operators) && dataTypes == old(dataTypes) && connection == old(connection)
      ensures driverCharset == old(driverCharset) && supportsMars == old(supportsMars) && isSqlAzure == old(isSqlAzure)
      ensures needsRollback == old(needsRollback) && recoveryWaits == old(recoveryWaits)
    {
      log := log + [Sql(TrancountQuery)];
      var trancount := tranCount;
      if trancount > 0 {
        log := log + [SavepointRollback(sid)];
      }
    }

    /**
     * `_set_autocommit`: turning autocommit off is always applied; turning
     * it on is applied only while a transaction is open. Without a
     * connection, the assignment's `AttributeError` is swallowed, but
     * reading the transaction count raises it.
     */
    method SetAutocommit(autocommit: bool) returns (err: Option<Error>)
      modifies this
      ensures autocommit && old(connection).None? ==> err == Some(AttributeError) && connection == None
      ensures err.Some? ==> autocommit && old(connection).None?
      ensures autocommit && old(connection).Some? ==> log == old(log) + [Sql(TrancountQuery)]
      ensures !(autocommit && old(connection).Some?) ==> log == old(log)
      ensures old(connection).Some? ==> connection.Some? && connection.value.id == old(connection).value.id
      ensures old(connection).Some? ==>
        (connection.value.autocommit ==
          if !autocommit || tranCount > 0 then autocommit else old(connection).value.autocommit)
      ensures old(connection).None? ==> connection == None
      ensures tranCount == old(tranCount)
      ensures operators == old(operators) && dataTypes == old(dataTypes)
      ensures driverCharset == old(driverCharset) && supportsMars == old(supportsMars) && isSqlAzure == old(isSqlAzure)
      ensures needsRollback == old(needsRollback) && recoveryWaits == old(recoveryWaits)
    {
      err := None;
      var allowed := !autocommit;
      if !allowed {
        if connection.None? {
          return Some(AttributeError);
        }
        log := log + [Sql(TrancountQuery)];
        allowed := tranCount > 0;
      }
      if allowed && connection.Some? {
        connection := Some(connection.value.(autocommit := autocommit));
      }
    }

    /** `_execute_foreach`: one statement per table, on the given tables or on all of them. */
    method ExecuteForeach(template: string, tableNames: Option<seq<string>>, allTables: seq<string>,
                          quoteName: string -> string)
      modifies this
      ensures log == old(log) + ForeachStatements(template, if tableNames.Some? then tableNames.value else allTables, quoteName)
      ensures tranCount == old(tranCount) && connection == old(connection)
      ensures operators == old(operators) && dataTypes == old(dataTypes)
      ensures driverCharset == old(driverCharset) && supportsMars == old(supportsMars) && isSqlAzure == old(isSqlAzure)
      ensures needsRollback == old(needsRollback) && recoveryWaits == old(recoveryWaits)
    {
      var tables := if tableNames.Some? then tableNames.value else allTables;
      ghost var log0 := log;
      var i := 0;
      while i < |tables|
        invariant 0 <= i <= |tables|
        invariant log == log0 + ForeachStatements(template, tables[..i], quoteName)
        invariant tranCount == old(tranCount) && connection == old(connection)
        invariant operators == old(operators) && dataTypes == old(dataTypes)
        invariant driverCharset == old(driverCharset) && supportsMars == old(supportsMars)
        invariant isSqlAzure == old(isSqlAzure) && needsRollback == old(needsRollback)
        invariant recoveryWaits == old(recoveryWaits)
      {
        log := log + [Sql(ForTable(template, quoteName(tables[i])))];
        assert ForeachStatements(template, tables[..i + 1], quoteName)
          == ForeachStatements(template, tables[..i], quoteName) + [Sql(ForTable(template, quoteName(tables[i])))];
        i := i + 1;
      }
      assert tables[..i] == tables;
    }

    /** `check_constraints`: re-validates every constraint of the given tables. */
    method CheckConstraints(tableNames: Option<seq<string>>, allTables: seq<string>, quoteName: string -> string)
      modifies this
      ensures log == old(log) + ForeachStatements(CheckConstraintsSql,
                                                  if tableNames.Some? then tableNames.value else allTables, quoteName)
      ensures var tables := if tableNames.Some? then tableNames.value else allTables;
        |log| == |old(log)| + |tables| &&
        forall i :: 0 <= i < |tables| ==> log[|old(log)| + i] == Sql(AlterTable + quoteName(tables[i]) + WithCheckAll)
      ensures tranCount == old(tranCount) && connection == old(connection)
      ensures operators == old(operators) && dataTypes == old(dataTypes)
      ensures driverCharset == old(driverCharset) && supportsMars == old(supportsMars) && isSqlAzure == old(isSqlAzure)
      ensures needsRollback == old(needsRollback) && recoveryWaits == old(recoveryWaits)
    {
      ExecuteForeach(CheckConstraintsSql, tableNames, allTables, quoteName);
      ConstraintStatementsText(if tableNames.Some? then tableNames.value else allTables, quoteName);
    }

    /**
     * `disable_constraint_checking`: one NOCHECK statement per table unless
     * the transaction is marked for rollback; the result says whether it ran.
     */
    method DisableConstraintChecking(allTables: seq<string>, quoteName: string -> string) returns (disabled: bool)
      modifies this
      ensures disabled == !old(needsRollback)
      ensures log == old(log) + (if disabled then ForeachStatements(DisableConstraintsSql, allTables, quoteName) else [])
      ensures disabled ==>
        (|log| == |old(log)| + |allTables| &&
         forall i :: 0 <= i < |allTables| ==> log[|old(log)| + i] == Sql(AlterTable + quoteName(allTables[i]) + NoCheckAll))
      ensures tranCount == old(tranCount) && connection == old(connection)
      ensures operators == old(operators) && dataTypes == old(dataTypes)
      ensures driverCharset == old(driverCharset) && supportsMars == old(supportsMars) && isSqlAzure == old(isSqlAzure)
      ensures needsRollback == old(needsRollback) && recoveryWaits == old(recoveryWaits)
    {
      if !needsRollback {
        ExecuteForeach(DisableConstraintsSql, None, allTables, quoteName);
        ConstraintStatementsText(allTables, quoteName);
      }
      disabled := !needsRollback;
    }

    /** `enable_constraint_checking`: one statement per table unless the transaction is marked for rollback. */
    method EnableConstraintChecking(allTables: seq<string>, quoteName: string -> string)
      modifies this
      ensures log == old(log) + (if !needsRollback then ForeachStatements(EnableConstraintsSql, allTables, quoteName) else [])
      ensures !needsRollback ==>
        (|log| == |old(log)| + |allTables| &&
         forall i :: 0 <= i < |allTables| ==> log[|old(log)| + i] == Sql(AlterTable + quoteName(allTables[i]) + WithNoCheckAll))
      ensures tranCount == old(tranCount) && connection == old(connection)
      ensures operators == old(operators) && dataTypes == old(dataTypes)
      ensures driverCharset == old(driverCharset) && supportsMars == old(supportsMars) && isSqlAzure == old(isSqlAzure)
      ensures needsRollback == old(needsRollback) && recoveryWaits == old(recoveryWaits)
    {
      if !needsRollback {
        ExecuteForeach(EnableConstraintsSql, None, allTables, quoteName);
        ConstraintStatementsText(allTables, quoteName);
      }
    }

    /**
     * `init_connection_state`. A `ProductVersion` whose leading part is an
     * integer sets `is_sql_azure` from the engine edition (a non-integer
     * one only warns; bytes raise `TypeError` at `split('.', 2)`, and any
     * other value that is not text has no `split`). Then the isolation level
     * and the date settings are sent, and the server clock is read with
     * `GETDATE()` (2005 and older) or `SYSDATETIME()`; a clock returned as
     * text means the driver lacks the modern temporal types.
     */
    method InitConnectionState(productVersion: Value, engineEdition: Value, isolationLevel: string,
                               datefirst: string, version: Result<int>, systemDatetime: Value)
      returns (err: Option<Error>)
      modifies this
      ensures !productVersion.Str? ==>
        err == Some(if productVersion.Bytes? then TypeError else AttributeError)
        && log == old(log) && isSqlAzure == old(isSqlAzure)
      ensures productVersion.Str? ==>
        (isSqlAzure == if ParseInt(BeforeDot(productVersion.s)).Some? then IsSqlAzure(engineEdition) else old(isSqlAzure))
      ensures productVersion.Str? ==>
        (log == old(log)
          + (if isolationLevel != "" then [Sql("SET TRANSACTION ISOLATION LEVEL " + isolationLevel)] else [])
          + [Sql("SET DATEFORMAT ymd; SET DATEFIRST " + datefirst)]
          + (if version.Ok? then [Sql(if version.value <= 2005 then "SELECT GETDATE()" else "SELECT SYSDATETIME()")] else []))
      ensures productVersion.Str? ==>
        (err == if version.Err? then Some(version.error)
                else if systemDatetime.Str? then Some(ImproperlyConfigured(ModernTypesUnsupported))
                else None)
      ensures tranCount == old(tranCount) && connection == old(connection)
      ensures operators == old(operators) && dataTypes == old(dataTypes)
      ensures driverCharset == old(driverCharset) && supportsMars == old(supportsMars)
      ensures needsRollback == old(needsRollback) && recoveryWaits == old(recoveryWaits)
    {
      if productVersion.Bytes? {
        return Some(TypeError);
      } else if !productVersion.Str? {
        return Some(AttributeError);
      }
      if ParseInt(BeforeDot(productVersion.s)).Some? {
        isSqlAzure := IsSqlAzure(engineEdition);
      }
      var sent: seq<Stmt> := [];
      if isolationLevel != "" {
        sent := sent + [Sql("SET TRANSACTION ISOLATION LEVEL " + isolationLevel)];
      }
      sent := sent + [Sql("SET DATEFORMAT ymd; SET DATEFIRST " + datefirst)];
      err := None;
      if version.Err? {
        err := Some(version.error);
      } else {
        if version.value <= 2005 {
          sent := sent + [Sql("SELECT GETDATE()")];
        } else {
          sent := sent + [Sql("SELECT SYSDATETIME()")];
        }
        if systemDatetime.Str? {
          err := Some(ImproperlyConfigured(ModernTypesUnsupported));
        }
      }
      log := log + sent;
    }
  }

  /**
   * A savepoint inside an atomic block, then a network error, then a new
   * connection whose own `@@TRANCOUNT` is `newTranCount`, then a rollback to
   * the savepoint: the lost connection marks the block for rollback,
   * `connect()` clears the mark, and the rollback is sent exactly when the
   * new connection has a transaction open.
   */
  method LostConnectionInSavepoint(c: DriverConnection, d: DriverConnection, newTranCount: nat)
    returns (markedAfterError: bool, markedAfterReconnect: bool, rollbackSent: bool)
    ensures markedAfterError && !markedAfterReconnect
    ensures rollbackSent == (newTranCount > 0)
  {
    var w := new DatabaseWrapper(WrapperOptions(false, None, ""));
    var e := w.EnsureConnection(c, 0, Ok(2019));
    w.Savepoint("s1");
    w.OnError(Str("08S01"), true, false);
    markedAfterError := w.needsRollback;
    e := w.EnsureConnection(d, newTranCount, Ok(2019));
    markedAfterReconnect := w.needsRollback;
    var before := |w.log|;
    w.SavepointRollbackTo("s1");
    rollbackSent := |w.log| == before + 2 && w.log[before + 1] == SavepointRollback("s1");
  }

  /** Applying the legacy override again changes nothing, so reconnecting to a 2005 server is harmless. */
  lemma LegacyOverrideIdempotent(dt: map<string, string>)
    ensures LegacyDataTypes(LegacyDataTypes(dt)) == LegacyDataTypes(dt)
  {
  }

  /** Each table gets the statement for itself: the template with its quoted name in place of `%s`. */
  lemma ForTableFillsPlaceholder(prefix: string, suffix: string, quoted: string)
    requires !Contains(prefix + "%", "%s") && !Contains(suffix, "%s")
    ensures ForTable(prefix + "%s" + suffix, quoted) == prefix + quoted + suffix
  {
    ReplaceAround(prefix, suffix, "%s", quoted);
  }
}

=== FILE: connect.dfy ===
/**
 * Opening a connection: `get_connection_params` (the NAME default),
 * the validation at the top of `get_new_connection`, and its retry loop
 * over transient Azure errors.
 *
 * The driver's `connect` is a parameter: `attempt(i)` is what the i-th call
 * returns, a connection or an error whose message number `err_no` has
 * already been taken from the exception. `validate_ipv46_address` is the
 * parameter `isIp`. Sleeps are recorded, not performed.
 */
module Connect {
  import opened Text
  import opened PyValues
  import opened ConnString

  const NameMissing := "settings.DATABASES is improperly configured. Please supply the NAME value."
  const DatabaseNameMissing := "You need to specify a DATABASE NAME in your Django settings file."
  const HostNotIp := "When using DATABASE PORT, DATABASE HOST must be an IP address."
  const PortNotNumber := "DATABASE PORT must be a number."

  /** The entries of `OPTIONS` that opening a connection reads. */
  datatype ConnOptions = ConnOptions(
    driver: Option<string>,     // 'driver', default 'ODBC Driver 17 for SQL Server'
    dsn: Value,                 // 'dsn', default None
    extraParams: string,        // 'extra_params', default ''
    hostIsServer: Value,        // 'host_is_server', default False
    retries: int,               // 'connection_retries', default 5
    backoffTime: int)           // 'connection_retry_backoff_time', default 5

  /**
   * One `settings.DATABASES` entry. `name` is NAME as Django's defaults
   * leave it (`Null` is `None`). `port`, `user` and `password` are read with
   * `get(..., None)`, so `Null` is a key that is absent or `None`; `host`
   * and `trustedConnection` are `None` (the option) when the key is absent.
   */
  datatype Settings = Settings(
    name: Value,
    host: Option<string>,
    port: Value,
    user: Value,
    password: Value,
    trustedConnection: Option<Value>,
    options: ConnOptions)

  /**
   * `get_connection_params`: an empty NAME is refused, NAME `None` becomes
   * `master`, and nothing else in the settings changes.
   */
  function GetConnectionParams(s: Settings): (r: Result<Settings>)
    ensures r.Err? <==> s.name == Str("")
    ensures r.Err? ==> r.error == ImproperlyConfigured(NameMissing)
    ensures r.Ok? ==> r.value.(name := s.name) == s
    ensures r.Ok? ==> Truthy(r.value.name) || r.value.name == s.name
    ensures s.name == Null ==> r == Ok(s.(name := Str("master")))
  {
    if s.name == Str("") then Err(ImproperlyConfigured(NameMissing))
    else if s.name == Null then Ok(s.(name := Str("master")))
    else Ok(s)
  }

  /** HOST, defaulting to `localhost`, with `localhost` written as `127.0.0.1`. */
  function ResolvedHost(host: Option<string>): string
  {
    match host
    case None => "127.0.0.1"
    case Some(h) => if h == "localhost" then "127.0.0.1" else h
  }

  /**
   * The checks of `get_new_connection` before it builds the connection
   * string: a non-empty database name, an IP address as host, and a port
   * `int()` accepts. A missing PORT is `int(None)`, a `TypeError` nobody
   * catches. On success, the host to use and the port as a number.
   */
  function ValidateTarget(database: Value, host: Option<string>, port: Value,
                          isIp: string -> bool): (r: Result<(string, int)>)
    ensures r.Ok? <==> Truthy(database) && isIp(ResolvedHost(host)) && PyInt(port).Ok?
    ensures r.Ok? ==> r.value == (ResolvedHost(host), PyInt(port).value)
    ensures database == Str("") ==> r == Err(ImproperlyConfigured(NameMissing))
    ensures database != Str("") && !Truthy(database) ==> r == Err(ImproperlyConfigured(DatabaseNameMissing))
    ensures Truthy(database) && !isIp(ResolvedHost(host)) ==> r == Err(ImproperlyConfigured(HostNotIp))
    ensures r.Err? && Truthy(database) && isIp(ResolvedHost(host)) ==>
      r.error == (if PyInt(port).error == ValueError then ImproperlyConfigured(PortNotNumber) else TypeError)
    ensures r.Err? ==> r.error in {ImproperlyConfigured(NameMissing), ImproperlyConfigured(DatabaseNameMissing),
                                   ImproperlyConfigured(HostNotIp), ImproperlyConfigured(PortNotNumber), TypeError}
  {
    if database == Str("") then Err(ImproperlyConfigured(NameMissing))
    else if !Truthy(database) then Err(ImproperlyConfigured(DatabaseNameMissing))
    else if !isIp(ResolvedHost(host)) then Err(ImproperlyConfigured(HostNotIp))
    else match PyInt(port)
      case Err(ValueError) => Err(ImproperlyConfigured(PortNotNumber))
      case Err(e) => Err(e)
      case Ok(p) => Ok((ResolvedHost(host), p))
  }

  /** The inputs of the `cstr_parts` assembly once the settings are validated. */
  function CstrInputOf(s: Settings, host: string, port: int, isWindows: bool): CstrInput
  {
    CstrInput(
      driver := if s.options.driver.Some? then s.options.driver.value else "ODBC Driver 17 for SQL Server",
      dsn := s.options.dsn,
      host := host,
      port := port,
      user := s.user,
      password := s.password,
      trustedConnection := if s.trustedConnection.Some? then s.trustedConnection.value else Str("yes"),
      database := s.name,
      extraParams := s.options.extraParams,
      hostIsServer := s.options.hostIsServer,
      isWindows := isWindows)
  }

  /** `_transient_error_numbers`. */
  const TransientErrorNumbers: seq<string> :=
    ["4060", "10928", "10929", "40197", "40501", "40613", "49918", "49919", "49920"]

  /** Some transient error number occurs in the error text. */
  predicate IsTransient(errNo: string)
  {
    exists k :: 0 <= k < |TransientErrorNumbers| && Contains(errNo, TransientErrorNumbers[k])
  }

  /** The search of the `for error_number in ...` loop: it stops at the first number found. */
  method MatchTransient(errNo: string) returns (matched: bool)
    ensures matched <==> IsTransient(errNo)
  {
    matched := false;
    var k := 0;
    while k < |TransientErrorNumbers|
      invariant 0 <= k <= |TransientErrorNumbers|
      invariant forall j :: 0 <= j < k ==> !Contains(errNo, TransientErrorNumbers[j])
    {
      if Contains(errNo, TransientErrorNumbers[k]) {
        matched := true;
        break;
      }
      k := k + 1;
    }
  }

  /** What the driver's i-th `connect` call does. */
  datatype Attempt = Connected(conn: nat) | Failed(errNo: string)

  /**
   * How opening a connection ends: with a connection, by re-raising the
   * driver's error (`raise`), or with another exception.
   */
  datatype ConnectOutcome = Connection(conn: nat) | Reraised(errNo: string) | Raised(error: Error)

  /**
   * The retry policy, from attempt number `count` on: a transient error is
   * retried while fewer than `retries` retries happened; a connection or any
   * other error ends it. The result also counts the sleeps taken.
   */
  function RetryFrom(attempt: nat -> Attempt, retries: int, count: nat): (ConnectOutcome, nat)
    decreases if count < retries then retries - count else 0
  {
    match attempt(count)
    case Connected(c) => (Connection(c), count)
    case Failed(e) =>
      if IsTransient(e) && count < retries then RetryFrom(attempt, retries, count + 1)
      else (Reraised(e), count)
  }

  /**
   * The policy in full: after `n` sleeps, attempt `n` decides. Every earlier
   * attempt failed transiently, `n` never exceeds the retry budget, and a
   * re-raised error is either not transient or met an exhausted budget.
   */
  lemma {:induction false} RetryFromSpec(attempt: nat -> Attempt, retries: int, count: nat)
    ensures var (o, n) := RetryFrom(attempt, retries, count);
      && count <= n
      && (n == count || n <= retries)
      && (forall j :: count <= j < n ==> attempt(j).Failed? && IsTransient(attempt(j).errNo))
      && (o.Connection? ==> attempt(n) == Connected(o.conn))
      && (o.Reraised? ==> attempt(n) == Failed(o.errNo) && (!IsTransient(o.errNo) || n >= retries))
      && !o.Raised?
    decreases if count < retries then retries - count else 0
  {
    match attempt(count)
    case Connected(c) =>
    case Failed(e) =>
      if IsTransient(e) && count < retries {
        RetryFromSpec(attempt, retries, count + 1);
      }
  }

  /** When every attempt fails transiently, there are exactly `retries` sleeps and attempt `retries` is re-raised. */
  lemma {:induction false} RetryExhausts(attempt: nat -> Attempt, retries: nat, count: nat)
    requires count <= retries
    requires forall j :: attempt(j).Failed? && IsTransient(attempt(j).errNo)
    ensures RetryFrom(attempt, retries, count) == (Reraised(attempt(retries).errNo), retries)
    decreases retries - count
  {
    if count < retries {
      RetryExhausts(attempt, retries, count + 1);
    }
  }

  /** The loop variables `retry_count` and `need_to_retry`. */
  datatype RetryState = RetryState(retryCount: nat, needToRetry: bool)

  /**
   * The `except` block as written, once the transient-number search gave
   * `transient`: a retried failure counts one more retry and sets the flag,
   * a transient failure over budget clears it, and a failure matching no
   * number leaves both untouched. The loop goes on while the flag is set.
   */
  function OnConnectFailure(st: RetryState, transient: bool, retries: int): (r: RetryState)
    ensures transient && st.retryCount < retries ==> r == RetryState(st.retryCount + 1, true)
    ensures transient && st.retryCount >= retries ==> r == RetryState(st.retryCount, false)
    ensures !transient ==> r == st
  {
    if !transient then st
    else if st.retryCount < retries then RetryState(st.retryCount + 1, true)
    else st.(needToRetry := false)
  }

  /** The `except` block with the flag cleared on every failure before it is decided. */
  function OnConnectFailureCorrected(st: RetryState, transient: bool, retries: int): (r: RetryState)
    ensures r.needToRetry <==> transient && st.retryCount < retries
    ensures r.retryCount == st.retryCount + (if r.needToRetry then 1 else 0)
  {
    OnConnectFailure(st.(needToRetry := false), transient, retries)
  }

  /**
   * As written, once a failure has been retried, a failure that matches no
   * transient number leaves the state exactly as it was and the loop goes
   * on: no sleep, no retry counted, no `raise`. With the flag cleared first
   * the same failure is raised.
   */
  lemma StickyRetryFlag(st: RetryState, retries: int)
    requires st.needToRetry
    ensures OnConnectFailure(st, false, retries) == st
    ensures OnConnectFailure(st, false, retries).needToRetry
    ensures !OnConnectFailureCorrected(st, false, retries).needToRetry
  {
  }

  /** Database unavailable (40613) is a transient error; login failure (18456) is not. */
  lemma TransientExamples()
    ensures IsTransient("40613") && !IsTransient("18456")
  {
    assert Contains("40613", TransientErrorNumbers[5]);
    forall k | 0 <= k < |TransientErrorNumbers|
      ensures !Contains("18456", TransientErrorNumbers[k])
    {
      var code := TransientErrorNumbers[k];
      assert code[1] == '0' || code[1] == '9';
      if Contains("18456", code) {
        ContainsKeepsChars("18456", code, 1);
      }
    }
  }

  /**
   * The `except` block alone, on login failure 18456 after a retried 40613
   * with the default five retries: as written the handler keeps the state,
   * flag set, so the loop goes on; with the flag cleared first it raises.
   */
  lemma StickyRetryFlagExample()
    ensures var st := OnConnectFailure(RetryState(0, false), IsTransient("40613"), 5);
      && st == RetryState(1, true)
      && OnConnectFailure(st, IsTransient("18456"), 5) == st
      && !OnConnectFailureCorrected(st, IsTransient("18456"), 5).needToRetry
  {
    TransientExamples();
  }

  /**
   * The retry loop with the parameter rebuild fixed (every iteration calls
   * the driver) but the handler as written, run for at most `fuel`
   * iterations; `None` when it is still running. `calls` counts the driver
   * calls made so far. The result also counts the retries.
   */
  function StickyLoop(attempt: nat -> Attempt, retries: int, st: RetryState, calls: nat, fuel: nat)
    : Option<(ConnectOutcome, nat)>
    decreases fuel
  {
    if fuel == 0 then None
    else match attempt(calls)
      case Connected(c) => Some((Connection(c), st.retryCount))
      case Failed(e) =>
        var next := OnConnectFailure(st, IsTransient(e), retries);
        if !next.needToRetry then Some((Reraised(e), next.retryCount))
        else StickyLoop(attempt, retries, next, calls + 1, fuel - 1)
  }

  /** After the retried 40613, each refused login leaves the loop running, without a sleep. */
  lemma {:induction false} StickyLoopKeepsRunning(attempt: nat -> Attempt, calls: nat, fuel: nat)
    requires forall i :: i >= 1 ==> attempt(i) == Failed("18456")
    requires calls >= 1
    ensures StickyLoop(attempt, 5, RetryState(1, true), calls, fuel) == None
    decreases fuel
  {
    if fuel > 0 {
      TransientExamples();
      StickyLoopKeepsRunning(attempt, calls + 1, fuel - 1);
    }
  }

  /**
   * Error 40613 and then login failure 18456 on every later attempt, default
   * five retries. With only the parameter rebuild fixed, the handler as
   * written never ends the loop, however many iterations are allowed: it
   * calls the driver again and again, without a sleep and without raising.
   * The corrected loop raises the login failure after one sleep.
   */
  lemma StickyLoopNeverEnds(fuel: nat)
    ensures var attempt := (i: nat) => if i == 0 then Failed("40613") else Failed("18456");
      && StickyLoop(attempt, 5, RetryState(0, false), 0, fuel) == None
      && RetryFrom(attempt, 5, 0) == (Reraised("18456"), 1)
  {
    var attempt := (i: nat) => if i == 0 then Failed("40613") else Failed("18456");
    TransientExamples();
    if fuel > 0 {
      assert OnConnectFailure(RetryState(0, false), true, 5) == RetryState(1, true);
      StickyLoopKeepsRunning(attempt, 1, fuel - 1);
    }
  }

  /**
   * The retry loop of `get_new_connection` as intended: each failure decides
   * afresh whether to retry, and every iteration calls the driver.
   */
  method ConnectWithRetries(attempt: nat -> Attempt, retries: int, backoffTime: int)
    returns (outcome: ConnectOutcome, sleeps: seq<int>)
    ensures outcome == RetryFrom(attempt, retries, 0).0
    ensures |sleeps| == RetryFrom(attempt, retries, 0).1
    ensures forall i :: 0 <= i < |sleeps| ==> sleeps[i] == backoffTime
  {
    var st := RetryState(0, false);
    sleeps := [];
    while true
      invariant RetryFrom(attempt, retries, st.retryCount) == RetryFrom(attempt, retries, 0)
      invariant |sleeps| == st.retryCount
      invariant forall i :: 0 <= i < |sleeps| ==> sleeps[i] == backoffTime
      decreases if st.retryCount < retries then retries - st.retryCount else 0
    {
      match attempt(st.retryCount)
      case Connected(c) =>
        return Connection(c), sleeps;
      case Failed(errNo) =>
        var transient := MatchTransient(errNo);
        if transient && st.retryCount < retries {
          sleeps := sleeps + [backoffTime];
        }
        st := OnConnectFailureCorrected(st, transient, retries);
        if !st.needToRetry {
          return Reraised(errNo), sleeps;
        }
    }
  }

  /**
   * What the loop as written achieves, decided by the first attempt alone:
   * after one transient failure it sleeps once and then fails with
   * `AttributeError` instead of calling the driver again.
   */
  function AsWrittenRetry(first: Attempt, retries: int): (ConnectOutcome, nat)
  {
    match first
    case Connected(c) => (Connection(c), 0)
    case Failed(e) => if IsTransient(e) && 0 < retries then (Raised(AttributeError), 1) else (Reraised(e), 0)
  }

  /**
   * The retry loop as written. Its first iteration replaces `conn_params`
   * by a copy with lower-case keys, so the second iteration's
   * `conn_params['PORT']` raises `KeyError`; the handler then reads
   * `args[0][1].decode()` on the key text and raises `AttributeError`.
   */
  method ConnectAsWritten(attempt: nat -> Attempt, retries: int, backoffTime: int)
    returns (outcome: ConnectOutcome, sleeps: seq<int>)
    ensures (outcome, |sleeps|) == AsWrittenRetry(attempt(0), retries)
    ensures forall i :: 0 <= i < |sleeps| ==> sleeps[i] == backoffTime
  {
    var st := RetryState(0, false);
    var paramsRebuilt := false;
    sleeps := [];
    while true
      invariant !paramsRebuilt ==> st == RetryState(0, false) && sleeps == []
      invariant paramsRebuilt ==> AsWrittenRetry(attempt(0), retries) == (Raised(AttributeError), 1)
      invariant paramsRebuilt ==> sleeps == [backoffTime]
      decreases if paramsRebuilt then 0 else 1
    {
      if paramsRebuilt {
        return Raised(AttributeError), sleeps;
      }
      paramsRebuilt := true;
      match attempt(st.retryCount)
      case Connected(c) =>
        return Connection(c), sleeps;
      case Failed(errNo) =>
        var transient := MatchTransient(errNo);
        if transient && st.retryCount < retries {
          sleeps := sleeps + [backoffTime];
        }
        st := OnConnectFailure(st, transient, retries);
        if !st.needToRetry {
          return Reraised(errNo), sleeps;
        }
    }
  }

  /**
   * As written, a transient first failure is never retried: the intended
   * policy would take the connection the second attempt offers, the loop
   * as written raises `AttributeError` instead.
   */
  lemma AsWrittenLosesRetry(attempt: nat -> Attempt, retries: int)
    requires attempt(0).Failed? && IsTransient(attempt(0).errNo) && 0 < retries
    requires attempt(1).Connected?
    ensures AsWrittenRetry(attempt(0), retries) == (Raised(AttributeError), 1)
    ensures RetryFrom(attempt, retries, 0) == (Connection(attempt(1).conn), 1)
  {
  }

  /** Error 40613 (database unavailable) with the default five retries, then a connection. */
  lemma RetryExample()
    ensures var attempt := (i: nat) => if i == 0 then Failed("40613") else Connected(1);
      && AsWrittenRetry(attempt(0), 5) == (Raised(AttributeError), 1)
      && RetryFrom(attempt, 5, 0) == (Connection(1), 1)
  {
    assert Contains("40613", TransientErrorNumbers[5]);
  }

  /**
   * `get_new_connection` with both corrections: the connection string
   * writes the port as text, and the retry loop calls the driver on every
   * iteration. The connection string is built and checked, and then not
   * passed to the driver.
   */
  method GetNewConnection(s: Settings, isIp: string -> bool, isWindows: bool, attempt: nat -> Attempt)
    returns (outcome: ConnectOutcome, sleeps: seq<int>)
    ensures var v := ValidateTarget(s.name, s.host, s.port, isIp);
      && (v.Err? ==> outcome == Raised(v.error) && sleeps == [])
      && (v.Ok? ==>
            var cs := ConnectionString(CstrPartsCorrected(CstrInputOf(s, v.value.0, v.value.1, isWindows)),
                                       s.options.extraParams);
            && (cs.Err? ==> outcome == Raised(cs.error) && sleeps == [])
            && (cs.Ok? ==> (outcome, |sleeps|) == RetryFrom(attempt, s.options.retries, 0)))
    ensures forall i :: 0 <= i < |sleeps| ==> sleeps[i] == s.options.backoffTime
  {
    var v := ValidateTarget(s.name, s.host, s.port, isIp);
    if v.Err? {
      return Raised(v.error), [];
    }
    var c := CstrInputOf(s, v.value.0, v.value.1, isWindows);
    var connstr := ConnectionString(CstrPartsCorrected(c), s.options.extraParams);
    if connstr.Err? {
      return Raised(connstr.error), [];
    }
    outcome, sleeps := ConnectWithRetries(attempt, s.options.retries, s.options.backoffTime);
  }

  /**
   * `get_new_connection` as written: the connection string puts the port in
   * as an `int`, and the retry loop loses its parameters after the first
   * attempt.
   */
  method GetNewConnectionAsWritten(s: Settings, isIp: string -> bool, isWindows: bool, attempt: nat -> Attempt)
    returns (outcome: ConnectOutcome, sleeps: seq<int>)
    ensures var v := ValidateTarget(s.name, s.host, s.port, isIp);
      && (v.Err? ==> outcome == Raised(v.error) && sleeps == [])
      && (v.Ok? ==>
            var cs := ConnectionString(CstrParts(CstrInputOf(s, v.value.0, v.value.1, isWindows)),
                                       s.options.extraParams);
            && (cs.Err? ==> outcome == Raised(cs.error) && sleeps == [])
            && (cs.Ok? ==> (outcome, |sleeps|) == AsWrittenRetry(attempt(0), s.options.retries)))
    ensures forall i :: 0 <= i < |sleeps| ==> sleeps[i] == s.options.backoffTime
  {
    var v := ValidateTarget(s.name, s.host, s.port, isIp);
    if v.Err? {
      return Raised(v.error), [];
    }
    var c := CstrInputOf(s, v.value.0, v.value.1, isWindows);
    var connstr := ConnectionString(CstrParts(c), s.options.extraParams);
    if connstr.Err? {
      return Raised(connstr.error), [];
    }
    outcome, sleeps := ConnectAsWritten(attempt, s.options.retries, s.options.backoffTime);
  }

  /**
   * As written, FreeTDS with `host_is_server` and a port never reaches the
   * driver: building the connection string raises `TypeError`, where the
   * corrected parts build it.
   */
  lemma AsWrittenHostIsServerRaises(s: Settings, isIp: string -> bool, isWindows: bool)
    requires ValidateTarget(s.name, s.host, s.port, isIp).Ok?
    requires var v := ValidateTarget(s.name, s.host, s.port, isIp).value;
      var c := CstrInputOf(s, v.0, v.1, isWindows);
      !Truthy(c.dsn) && !MsDriver(c.driver) && Truthy(c.hostIsServer) && c.port != 0
    ensures var v := ValidateTarget(s.name, s.host, s.port, isIp).value;
      ConnectionString(CstrParts(CstrInputOf(s, v.0, v.1, isWindows)), s.options.extraParams) == Err(TypeError)
  {
    var v := ValidateTarget(s.name, s.host, s.port, isIp).value;
    HostIsServerPortRaises(CstrInputOf(s, v.0, v.1, isWindows));
  }

  /** With string settings, opening a connection only ever ends the way the retry policy says. */
  lemma StringSettingsReachDriver(s: Settings, isIp: string -> bool, isWindows: bool)
    requires ValidateTarget(s.name, s.host, s.port, isIp).Ok?
    requires s.options.dsn.Str? || !Truthy(s.options.dsn)
    requires Truthy(s.user) ==>
      s.user.Str? && (s.password.Str? || Contains(s.options.extraParams, "Authentication=ActiveDirectoryInteractive"))
    requires s.trustedConnection.Some? ==> s.trustedConnection.value.Str?
    requires s.name.Str?
    ensures var v := ValidateTarget(s.name, s.host, s.port, isIp).value;
      ConnectionString(CstrPartsCorrected(CstrInputOf(s, v.0, v.1, isWindows)), s.options.extraParams).Ok?
  {
    var v := ValidateTarget(s.name, s.host, s.port, isIp).value;
    CorrectedPartsEncode(CstrInputOf(s, v.0, v.1, isWindows));
  }
}

=== FILE: connstring.dfy ===
/**
 * The ODBC connection string of base.py: the escaping of one value
 * (`encode_value`), the joining of `KEY=value` pairs (`encode_connection_string`),
 * and the choice of keys `get_new_connection` assembles from the settings.
 *
 * The escaping follows the connection-string grammar of [MS-ODBCSTR]:
 * a value that holds `;` or begins (after spaces) with `{` is
 * enclosed in braces, with every `}` inside it doubled. The decoder below
 * reads that grammar back; `DecodeEncode` proves that it recovers every
 * pair list the encoder writes.
 */
module ConnString {
  import opened Text
  import opened PyValues

  /** The condition under which `encode_value` wraps its argument in braces. */
  predicate NeedsBraces(v: string)
  {
    ';' in v || StartsWith(Strip(v, ' '), "{")
  }

  /** `encode_value(v)` for a string `v`. */
  function EncodeValue(v: string): string
  {
    if NeedsBraces(v) then "{" + Replace(v, "}", "}}") + "}" else v
  }

  /** One `KEY=value` segment of the connection string. */
  function Segment(key: string, v: string): string
  {
    key + "=" + EncodeValue(v)
  }

  function Segments(fields: seq<(string, string)>): (r: seq<string>)
    ensures |r| == |fields|
  {
    if fields == [] then [] else [Segment(fields[0].0, fields[0].1)] + Segments(fields[1..])
  }

  /** `encode_connection_string(fields)` for a mapping whose values are all strings. */
  function Encode(fields: seq<(string, string)>): string
  {
    Join(";", Segments(fields))
  }

  /** The pairs of the mapping, when every value is a `str`. */
  function StringPairs(parts: seq<(string, Value)>): Option<seq<(string, string)>>
  {
    if parts == [] then Some([])
    else if !parts[0].1.Str? then None
    else match StringPairs(parts[1..])
      case None => None
      case Some(rest) => Some([(parts[0].0, parts[0].1.s)] + rest)
  }

  /**
   * `encode_connection_string(fields)` for a mapping with arbitrary Python
   * values: `encode_value` tests `';' in v`, which raises `TypeError` for a
   * value that is not a `str` (an `int` port, a `None` password).
   */
  function EncodeParts(parts: seq<(string, Value)>): (r: Result<string>)
    ensures r.Ok? <==> forall i :: 0 <= i < |parts| ==> parts[i].1.Str?
    ensures r.Err? ==> r.error == TypeError
  {
    StringPairsIff(parts);
    match StringPairs(parts)
    case None => Err(TypeError)
    case Some(fields) => Ok(Encode(fields))
  }

  lemma {:induction false} StringPairsIff(parts: seq<(string, Value)>)
    ensures StringPairs(parts).Some? <==> forall i :: 0 <= i < |parts| ==> parts[i].1.Str?
  {
    if parts != [] {
      StringPairsIff(parts[1..]);
      assert forall i :: 1 <= i < |parts| ==> parts[i] == parts[1..][i - 1];
    }
  }

  // ---------------------------------------------------------------------------
  // Reading a connection string back

  /** The key of one segment: everything up to the first `=`. */
  function ParseKey(s: string): (r: Option<(string, string)>)
    ensures r.Some? ==> |r.value.1| < |s|
    decreases |s|
  {
    if s == "" then None
    else if s[0] == '=' then Some(("", s[1..]))
    else match ParseKey(s[1..])
      case None => None
      case Some(kr) => Some(([s[0]] + kr.0, kr.1))
  }

  /**
   * The inside of a braced value, after its opening `{`: `}}` stands for one
   * `}`, and a single `}` closes the value.
   */
  function ScanBraced(s: string): (r: Option<(string, string)>)
    ensures r.Some? ==> |r.value.1| < |s|
    decreases |s|
  {
    if s == "" then None
    else if s[0] == '}' then
      if |s| > 1 && s[1] == '}' then
        match ScanBraced(s[2..])
        case None => None
        case Some(vr) => Some(("}" + vr.0, vr.1))
      else Some(("", s[1..]))
    else match ScanBraced(s[1..])
      case None => None
      case Some(vr) => Some(([s[0]] + vr.0, vr.1))
  }

  /** A value without braces: everything up to the next `;`. */
  function ScanPlain(s: string): (r: (string, string))
    ensures |r.0| + |r.1| == |s|
    decreases |s|
  {
    if s == "" || s[0] == ';' then ("", s)
    else var vr := ScanPlain(s[1..]); ([s[0]] + vr.0, vr.1)
  }

  function ParseValue(s: string): (r: Option<(string, string)>)
    ensures r.Some? ==> |r.value.1| <= |s|
  {
    if |s| > 0 && s[0] == '{' then ScanBraced(s[1..]) else Some(ScanPlain(s))
  }

  /** One `KEY=value` segment, and what follows it. */
  function ParsePair(s: string): (r: Option<((string, string), string)>)
    ensures r.Some? ==> |r.value.1| < |s|
  {
    match ParseKey(s)
    case None => None
    case Some(kr) =>
      match ParseValue(kr.1)
      case None => None
      case Some(vr) => Some(((kr.0, vr.0), vr.1))
  }

  function ParsePairs(s: string): Option<seq<(string, string)>>
    decreases |s|
  {
    match ParsePair(s)
    case None => None
    case Some(pr) =>
      if pr.1 == "" then Some([pr.0])
      else if pr.1[0] != ';' then None
      else match ParsePairs(pr.1[1..])
        case None => None
        case Some(rest) => Some([pr.0] + rest)
  }

  /** Reads a connection string back into its ordered key/value pairs. */
  function Decode(s: string): Option<seq<(string, string)>>
  {
    if s == "" then Some([]) else ParsePairs(s)
  }

  /** Strips the braces of an encoded value and un-doubles its `}`. */
  function DecodeValue(e: string): string
  {
    if |e| >= 2 && e[0] == '{' && e[|e| - 1] == '}' then Replace(e[1..|e| - 1], "}}", "}") else e
  }

  // ---------------------------------------------------------------------------
  // Properties of the encoder

  /** A value that begins with `{` is always wrapped. */
  lemma BraceFirstNeedsBraces(v: string)
    requires |v| > 0 && v[0] == '{'
    ensures NeedsBraces(v)
  {
    assert LStrip(v, ' ') == v;
    RStripKeepsHead(v, ' ');
  }

  /**
   * `encode_value` leaves a value alone exactly when it has no `;` and does
   * not begin, after spaces, with `{`; otherwise it wraps the value in braces,
   * and un-doubling the inside gives the value back.
   */
  lemma EncodeValueSpec(v: string)
    ensures !NeedsBraces(v) ==> EncodeValue(v) == v && ';' !in v && (|v| == 0 || v[0] != '{')
    ensures NeedsBraces(v) ==> var e := EncodeValue(v);
      |e| >= 2 && e[0] == '{' && e[|e| - 1] == '}' && Replace(e[1..|e| - 1], "}}", "}") == v
    ensures DecodeValue(EncodeValue(v)) == v
  {
    if |v| > 0 && v[0] == '{' {
      BraceFirstNeedsBraces(v);
    }
    var e := EncodeValue(v);
    if NeedsBraces(v) {
      assert e[1..|e| - 1] == Replace(v, "}", "}}");
      UndoubleDouble(v, '}');
    }
  }

  lemma {:induction false} ParseKeyOf(k: string, rest: string)
    requires '=' !in k
    ensures ParseKey(k + "=" + rest) == Some((k, rest))
    decreases |k|
  {
    if k == "" {
      assert k + "=" + rest == "=" + rest;
      assert ("=" + rest)[1..] == rest;
    } else {
      ParseKeyOf(k[1..], rest);
      assert (k + "=" + rest)[1..] == k[1..] + "=" + rest;
      assert [k[0]] + k[1..] == k;
    }
  }

  /** The text that may follow a value: the end, or the next `;`. */
  predicate Follows(rest: string)
  {
    rest == "" || rest[0] == ';'
  }

  lemma {:induction false} ScanPlainOf(v: string, rest: string)
    requires ';' !in v && Follows(rest)
    ensures ScanPlain(v + rest) == (v, rest)
    decreases |v|
  {
    if v == "" {
      assert v + rest == rest;
    } else {
      ScanPlainOf(v[1..], rest);
      assert (v + rest)[1..] == v[1..] + rest;
      assert [v[0]] + v[1..] == v;
    }
  }

  lemma {:induction false} ScanBracedOf(v: string, rest: string)
    requires Follows(rest)
    ensures ScanBraced(Replace(v, "}", "}}") + "}" + rest) == Some((v, rest))
    decreases |v|
  {
    var s := Replace(v, "}", "}}") + "}" + rest;
    if v == "" {
      assert Replace(v, "}", "}}") == "";
      assert s == "}" + rest;
      assert s[1..] == rest;
    } else {
      var tail := Replace(v[1..], "}", "}}");
      ScanBracedOf(v[1..], rest);
      if v[0] == '}' {
        assert "}" <= v;
        assert s == "}}" + (tail + "}" + rest);
        assert s[2..] == tail + "}" + rest;
        assert "}" + v[1..] == v;
      } else {
        assert !("}" <= v);
        assert s == [v[0]] + (tail + "}" + rest);
        assert s[1..] == tail + "}" + rest;
        assert [v[0]] + v[1..] == v;
      }
    }
  }

  lemma ParseValueOf(v: string, rest: string)
    requires Follows(rest)
    ensures ParseValue(EncodeValue(v) + rest) == Some((v, rest))
  {
    EncodeValueSpec(v);
    if NeedsBraces(v) {
      var s := EncodeValue(v) + rest;
      assert s == "{" + (Replace(v, "}", "}}") + "}" + rest);
      assert s[1..] == Replace(v, "}", "}}") + "}" + rest;
      ScanBracedOf(v, rest);
    } else {
      ScanPlainOf(v, rest);
    }
  }

  lemma ParsePairOf(k: string, v: string, rest: string)
    requires '=' !in k && Follows(rest)
    ensures ParsePair(Segment(k, v) + rest) == Some(((k, v), rest))
  {
    assert Segment(k, v) + rest == k + "=" + (EncodeValue(v) + rest);
    ParseKeyOf(k, EncodeValue(v) + rest);
    ParseValueOf(v, rest);
  }

  lemma {:induction false} ParsePairsOf(fields: seq<(string, string)>)
    requires |fields| > 0
    requires forall i :: 0 <= i < |fields| ==> '=' !in fields[i].0
    ensures ParsePairs(Encode(fields)) == Some(fields)
    decreases |fields|
  {
    var k, v := fields[0].0, fields[0].1;
    if |fields| == 1 {
      assert Encode(fields) == Segment(k, v) + "";
      ParsePairOf(k, v, "");
      assert fields == [(k, v)];
    } else {
      var rest := Encode(fields[1..]);
      assert Segments(fields)[1..] == Segments(fields[1..]);
      assert Encode(fields) == Segment(k, v) + (";" + rest);
      ParsePairOf(k, v, ";" + rest);
      assert (";" + rest)[1..] == rest;
      ParsePairsOf(fields[1..]);
      assert [fields[0]] + fields[1..] == fields;
    }
  }

  /**
   * Round trip: reading back what `encode_connection_string` writes gives the
   * same pairs in the same order, whatever the values, provided no key holds
   * `=` (the keys are the adapter's own constants).
   */
  lemma DecodeEncode(fields: seq<(string, string)>)
    requires forall i :: 0 <= i < |fields| ==> '=' !in fields[i].0
    ensures Decode(Encode(fields)) == Some(fields)
  {
    if fields != [] {
      ParsePairsOf(fields);
      var s0 := Segment(fields[0].0, fields[0].1);
      assert |s0| > 0;
      assert Encode(fields) != "" by {
        if |fields| == 1 {
          assert Encode(fields) == s0;
        } else {
          assert Segments(fields)[1..] == Segments(fields[1..]);
          assert Encode(fields) == s0 + ";" + Encode(fields[1..]);
        }
      }
    }
  }

  /** One segment per pair, in order, separated by `;`; no pairs give `""`. */
  lemma EncodeShape(fields: seq<(string, string)>)
    ensures fields == [] ==> Encode(fields) == ""
    ensures |fields| == 1 ==> Encode(fields) == Segment(fields[0].0, fields[0].1)
    ensures |fields| > 1 ==> Encode(fields) == Segment(fields[0].0, fields[0].1) + ";" + Encode(fields[1..])
  {
    if |fields| > 1 {
      assert Segments(fields)[1..] == Segments(fields[1..]);
    }
  }

  lemma EncodeExample()
    ensures Encode([("A", "1"), ("B", "x;y")]) == "A=1;B={x;y}"
  {
    assert !NeedsBraces("1") by {
      assert LStrip("1", ' ') == "1";
      assert RStrip("1", ' ') == "1";
    }
    assert NeedsBraces("x;y") by { assert "x;y"[1] == ';'; }
    assert Replace("x;y", "}", "}}") == "x;y" by {
      assert Replace("", "}", "}}") == "";
      assert Replace("y", "}", "}}") == "y";
      assert Replace(";y", "}", "}}") == ";y";
    }
    EncodeShape([("A", "1"), ("B", "x;y")]);
    assert [("A", "1"), ("B", "x;y")][1..] == [("B", "x;y")];
  }

  // ---------------------------------------------------------------------------
  // The parts assembled by get_new_connection

  /**
   * The test for a Microsoft driver name: the name begins with `SQL Server
   * Native Client`, or it is `ODBC Driver `, then any characters but a
   * newline, then ` for SQL Server`, optionally followed by one final
   * newline (the regular expression's `.` and `$` behave so).
   */
  predicate MsDriver(driver: string)
  {
    StartsWith(driver, "SQL Server Native Client")
    || OdbcDriverName(driver)
    || (|driver| > 0 && driver[|driver| - 1] == '\n' && OdbcDriverName(driver[..|driver| - 1]))
  }

  predicate OdbcDriverName(d: string)
  {
    |d| >= 27 && StartsWith(d, "ODBC Driver ") && EndsWith(d, " for SQL Server")
    && '\n' !in d[12..|d| - 15]
  }

  /** What `get_new_connection` has in hand when it builds `cstr_parts`. */
  datatype CstrInput = CstrInput(
    driver: string,             // OPTIONS['driver'], default 'ODBC Driver 17 for SQL Server'
    dsn: Value,                 // OPTIONS['dsn'], default None
    host: string,               // HOST after 'localhost' became '127.0.0.1'
    port: int,                  // int(PORT)
    user: Value,                // USER, default None
    password: Value,            // PASSWORD, default None
    trustedConnection: Value,   // Trusted_Connection, default 'yes'
    database: Value,            // NAME
    extraParams: string,        // OPTIONS['extra_params'], default ''
    hostIsServer: Value,        // OPTIONS['host_is_server'], default False
    isWindows: bool)            // os.name == 'nt'

  /** How the server is named, after DRIVER; `portValue` is what goes under PORT. */
  function ServerParts(c: CstrInput, portValue: Value): seq<(string, Value)>
  {
    if MsDriver(c.driver) then
      [("SERVER", Str(if c.port != 0 then c.host + "," + IntToString(c.port) else c.host))]
    else if Truthy(c.hostIsServer) then
      (if c.port != 0 then [("PORT", portValue)] else []) + [("SERVER", Str(c.host))]
    else [("SERVERNAME", Str(c.host))]
  }

  /** DSN, or DRIVER and the server. */
  function TargetParts(c: CstrInput, portValue: Value): seq<(string, Value)>
  {
    if Truthy(c.dsn) then [("DSN", c.dsn)]
    else [("DRIVER", Str(c.driver))] + ServerParts(c, portValue)
  }

  /** UID and PWD, or Trusted_Connection, or Integrated Security. */
  function AuthParts(c: CstrInput): seq<(string, Value)>
  {
    if Truthy(c.user) then
      [("UID", c.user)]
      + (if !Contains(c.extraParams, "Authentication=ActiveDirectoryInteractive")
         then [("PWD", c.password)] else [])
    else if MsDriver(c.driver) && !Contains(c.extraParams, "Authentication=ActiveDirectoryMsi")
    then [("Trusted_Connection", c.trustedConnection)]
    else [("Integrated Security", Str("SSPI"))]
  }

  /** DATABASE, then MARS_Connection for a Microsoft driver on Windows. */
  function DatabaseParts(c: CstrInput): seq<(string, Value)>
  {
    [("DATABASE", c.database)]
    + (if MsDriver(c.driver) && c.isWindows then [("MARS_Connection", Str("yes"))] else [])
  }

  function AssembleParts(c: CstrInput, portValue: Value): seq<(string, Value)>
  {
    TargetParts(c, portValue) + AuthParts(c) + DatabaseParts(c)
  }

  /** `cstr_parts` as written: the port goes in as the `int` that `int(port)` produced. */
  function CstrParts(c: CstrInput): seq<(string, Value)>
  {
    AssembleParts(c, Int(c.port))
  }

  /** `cstr_parts` with the port written out as text, as a connection string needs. */
  function CstrPartsCorrected(c: CstrInput): seq<(string, Value)>
  {
    AssembleParts(c, Str(IntToString(c.port)))
  }

  /** `connstr`: the encoded parts, then `;` and the extra parameters if there are any. */
  function ConnectionString(parts: seq<(string, Value)>, extraParams: string): (r: Result<string>)
    ensures r.Ok? <==> forall i :: 0 <= i < |parts| ==> parts[i].1.Str?
  {
    match EncodeParts(parts)
    case Err(e) => Err(e)
    case Ok(s) => Ok(if extraParams != "" then s + ";" + extraParams else s)
  }

  /** The value stored under `key`, if any. */
  function Lookup(parts: seq<(string, Value)>, key: string): Option<Value>
  {
    if parts == [] then None
    else if parts[0].0 == key then Some(parts[0].1)
    else Lookup(parts[1..], key)
  }

  function KeySet(parts: seq<(string, Value)>): set<string>
  {
    if parts == [] then {} else {parts[0].0} + KeySet(parts[1..])
  }

  /** No key is stored twice, as in a dictionary. */
  predicate DistinctKeys(parts: seq<(string, Value)>)
  {
    parts == [] || (parts[0].0 !in KeySet(parts[1..]) && DistinctKeys(parts[1..]))
  }

  lemma {:induction false} LookupAbsent(a: seq<(string, Value)>, key: string)
    requires key !in KeySet(a)
    ensures Lookup(a, key) == None
    decreases |a|
  {
    if a != [] {
      LookupAbsent(a[1..], key);
    }
  }

  lemma {:induction false} ConcatKeys(a: seq<(string, Value)>, b: seq<(string, Value)>, key: string)
    ensures KeySet(a + b) == KeySet(a) + KeySet(b)
    ensures DistinctKeys(a) && DistinctKeys(b) && KeySet(a) !! KeySet(b) ==> DistinctKeys(a + b)
    ensures key !in KeySet(a) ==> Lookup(a + b, key) == Lookup(b, key)
    ensures key !in KeySet(b) ==> Lookup(a + b, key) == Lookup(a, key)
    decreases |a|
  {
    if a == [] {
      assert a + b == b;
      if key !in KeySet(b) {
        LookupAbsent(b, key);
      }
    } else {
      assert (a + b)[1..] == a[1..] + b;
      ConcatKeys(a[1..], b, key);
      if key !in KeySet(b) && a[0].0 != key {
        LookupAbsent(b, key);
      }
    }
  }

  lemma Single(p: (string, Value), key: string)
    ensures KeySet([p]) == {p.0} && DistinctKeys([p])
    ensures Lookup([p], key) == if p.0 == key then Some(p.1) else None
  {
    assert [p][1..] == [];
  }

  lemma ServerKeys(c: CstrInput, portValue: Value, key: string)
    ensures DistinctKeys(ServerParts(c, portValue))
    ensures KeySet(ServerParts(c, portValue)) <= {"SERVER", "PORT", "SERVERNAME"}
    ensures key == "SERVER" ==> (Lookup(ServerParts(c, portValue), key) ==
      if MsDriver(c.driver) then Some(Str(if c.port != 0 then c.host + "," + IntToString(c.port) else c.host))
      else if Truthy(c.hostIsServer) then Some(Str(c.host))
      else None)
    ensures key == "PORT" ==> (Lookup(ServerParts(c, portValue), key) ==
      if !MsDriver(c.driver) && Truthy(c.hostIsServer) && c.port != 0 then Some(portValue) else None)
    ensures key == "SERVERNAME" ==> (Lookup(ServerParts(c, portValue), key) ==
      if !MsDriver(c.driver) && !Truthy(c.hostIsServer) then Some(Str(c.host)) else None)
  {
    var s := ServerParts(c, portValue);
    if MsDriver(c.driver) {
      Single(s[0], key);
    } else if Truthy(c.hostIsServer) {
      var sv := ("SERVER", Str(c.host));
      Single(sv, key);
      if c.port != 0 {
        Single(("PORT", portValue), key);
        ConcatKeys([("PORT", portValue)], [sv], key);
      } else {
        assert s == [sv];
      }
    } else {
      Single(s[0], key);
    }
  }

  lemma TargetKeys(c: CstrInput, portValue: Value, key: string)
    ensures DistinctKeys(TargetParts(c, portValue))
    ensures KeySet(TargetParts(c, portValue)) <= {"DSN", "DRIVER", "SERVER", "PORT", "SERVERNAME"}
    ensures key == "DSN" ==> Lookup(TargetParts(c, portValue), key) == (if Truthy(c.dsn) then Some(c.dsn) else None)
    ensures key == "DRIVER" ==> Lookup(TargetParts(c, portValue), key) == (if Truthy(c.dsn) then None else Some(Str(c.driver)))
    ensures key in {"SERVER", "PORT", "SERVERNAME"} ==>
      Lookup(TargetParts(c, portValue), key) == (if Truthy(c.dsn) then None else Lookup(ServerParts(c, portValue), key))
  {
    if Truthy(c.dsn) {
      Single(("DSN", c.dsn), key);
    } else {
      var d := ("DRIVER", Str(c.driver));
      Single(d, key);
      ServerKeys(c, portValue, key);
      ConcatKeys([d], ServerParts(c, portValue), key);
    }
  }

  lemma AuthKeys(c: CstrInput, key: string)
    ensures DistinctKeys(AuthParts(c))
    ensures KeySet(AuthParts(c)) <= {"UID", "PWD", "Trusted_Connection", "Integrated Security"}
    ensures key == "UID" ==> Lookup(AuthParts(c), key) == (if Truthy(c.user) then Some(c.user) else None)
    ensures key == "PWD" ==> (Lookup(AuthParts(c), key) ==
      if Truthy(c.user) && !Contains(c.extraParams, "Authentication=ActiveDirectoryInteractive")
      then Some(c.password) else None)
    ensures key == "Trusted_Connection" ==> (Lookup(AuthParts(c), key) ==
      if !Truthy(c.user) && MsDriver(c.driver) && !Contains(c.extraParams, "Authentication=ActiveDirectoryMsi")
      then Some(c.trustedConnection) else None)
    ensures key == "Integrated Security" ==> (Lookup(AuthParts(c), key) ==
      if !Truthy(c.user) && !(MsDriver(c.driver) && !Contains(c.extraParams, "Authentication=ActiveDirectoryMsi"))
      then Some(Str("SSPI")) else None)
  {
    var a := AuthParts(c);
    if Truthy(c.user) {
      var u := ("UID", c.user);
      Single(u, key);
      if !Contains(c.extraParams, "Authentication=ActiveDirectoryInteractive") {
        Single(("PWD", c.password), key);
        ConcatKeys([u], [("PWD", c.password)], key);
      } else {
        assert a == [u];
      }
    } else {
      Single(a[0], key);
    }
  }

  lemma DatabaseKeys(c: CstrInput, key: string)
    ensures DistinctKeys(DatabaseParts(c))
    ensures KeySet(DatabaseParts(c)) <= {"DATABASE", "MARS_Connection"}
    ensures key == "DATABASE" ==> Lookup(DatabaseParts(c), key) == Some(c.database)
    ensures key == "MARS_Connection" ==>
      Lookup(DatabaseParts(c), key) == (if MsDriver(c.driver) && c.isWindows then Some(Str("yes")) else None)
  {
    var db := ("DATABASE", c.database);
    Single(db, key);
    if MsDriver(c.driver) && c.isWindows {
      Single(("MARS_Connection", Str("yes")), key);
      ConcatKeys([db], [("MARS_Connection", Str("yes"))], key);
    } else {
      assert DatabaseParts(c) == [db];
    }
  }

  lemma PartsDisjoint(c: CstrInput, portValue: Value, key: string)
    ensures KeySet(AuthParts(c)) !! KeySet(DatabaseParts(c))
    ensures KeySet(TargetParts(c, portValue)) !! KeySet(AuthParts(c) + DatabaseParts(c))
  {
    TargetKeys(c, portValue, key);
    AuthKeys(c, key);
    DatabaseKeys(c, key);
    ConcatKeys(AuthParts(c), DatabaseParts(c), key);
  }

  lemma {:induction false} LookupAppend(a: seq<(string, Value)>, b: seq<(string, Value)>, key: string)
    ensures Lookup(a + b, key) == if Lookup(a, key).Some? then Lookup(a, key) else Lookup(b, key)
    decreases |a|
  {
    if a == [] {
      assert a + b == b;
    } else {
      assert (a + b)[1..] == a[1..] + b;
      LookupAppend(a[1..], b, key);
    }
  }

  /** A lookup in `cstr_parts` finds the first of the three sections that holds the key. */
  lemma AssembleLookup(c: CstrInput, pv: Value, key: string)
    ensures Lookup(AssembleParts(c, pv), key) ==
      if Lookup(TargetParts(c, pv), key).Some? then Lookup(TargetParts(c, pv), key)
      else if Lookup(AuthParts(c), key).Some? then Lookup(AuthParts(c), key)
      else Lookup(DatabaseParts(c), key)
  {
    var t, a, d := TargetParts(c, pv), AuthParts(c), DatabaseParts(c);
    LookupAppend(t, a + d, key);
    LookupAppend(a, d, key);
    assert AssembleParts(c, pv) == t + (a + d);
  }

  /** Each section holds only its own keys. */
  lemma SectionAbsent(c: CstrInput, pv: Value, key: string)
    ensures key !in {"DSN", "DRIVER", "SERVER", "PORT", "SERVERNAME"} ==> Lookup(TargetParts(c, pv), key) == None
    ensures key !in {"UID", "PWD", "Trusted_Connection", "Integrated Security"} ==> Lookup(AuthParts(c), key) == None
    ensures key !in {"DATABASE", "MARS_Connection"} ==> Lookup(DatabaseParts(c), key) == None
  {
    TargetKeys(c, pv, key);
    AuthKeys(c, key);
    DatabaseKeys(c, key);
    if key !in {"DSN", "DRIVER", "SERVER", "PORT", "SERVERNAME"} {
      LookupAbsent(TargetParts(c, pv), key);
    }
    if key !in {"UID", "PWD", "Trusted_Connection", "Integrated Security"} {
      LookupAbsent(AuthParts(c), key);
    }
    if key !in {"DATABASE", "MARS_Connection"} {
      LookupAbsent(DatabaseParts(c), key);
    }
  }

  lemma AssembleDistinct(c: CstrInput, pv: Value)
    ensures DistinctKeys(AssembleParts(c, pv))
  {
    var t, a, d := TargetParts(c, pv), AuthParts(c), DatabaseParts(c);
    TargetKeys(c, pv, "");
    AuthKeys(c, "");
    DatabaseKeys(c, "");
    PartsDisjoint(c, pv, "");
    ConcatKeys(a, d, "");
    ConcatKeys(t, a + d, "");
    assert AssembleParts(c, pv) == t + (a + d);
  }

  /** The lookup of one key in `cstr_parts`, from the section that holds it. */
  lemma KeyFound(c: CstrInput, pv: Value, key: string)
    ensures key in {"DSN", "DRIVER", "SERVER", "PORT", "SERVERNAME"} ==>
      Lookup(AssembleParts(c, pv), key) == Lookup(TargetParts(c, pv), key)
    ensures key in {"UID", "PWD", "Trusted_Connection", "Integrated Security"} ==>
      Lookup(AssembleParts(c, pv), key) == Lookup(AuthParts(c), key)
    ensures key in {"DATABASE", "MARS_Connection"} ==>
      Lookup(AssembleParts(c, pv), key) == Lookup(DatabaseParts(c), key)
  {
    AssembleLookup(c, pv, key);
    SectionAbsent(c, pv, key);
  }

  /**
   * The entries of `cstr_parts`, as the dictionary assignments at
   * base.py:325-356 leave them: each key at most once; DSN when a DSN is
   * given, and otherwise DRIVER and the server: SERVER (with `,port` when
   * there is a port) for a Microsoft driver, PORT and SERVER under
   * `host_is_server`, SERVERNAME otherwise. A user gives UID, and PWD unless
   * interactive Active Directory authentication is requested; without a
   * user, Trusted_Connection for a Microsoft driver not using a managed
   * identity, Integrated Security otherwise. DATABASE always;
   * MARS_Connection only for a Microsoft driver on Windows.
   */
  lemma CstrPartsKeys(c: CstrInput)
    ensures DistinctKeys(CstrParts(c))
    ensures Lookup(CstrParts(c), "DATABASE") == Some(c.database)
    ensures Lookup(CstrParts(c), "DSN") == (if Truthy(c.dsn) then Some(c.dsn) else None)
    ensures Lookup(CstrParts(c), "DRIVER") == (if Truthy(c.dsn) then None else Some(Str(c.driver)))
    ensures Lookup(CstrParts(c), "SERVER") ==
      (if Truthy(c.dsn) then None
       else if MsDriver(c.driver) then Some(Str(if c.port != 0 then c.host + "," + IntToString(c.port) else c.host))
       else if Truthy(c.hostIsServer) then Some(Str(c.host))
       else None)
    ensures Lookup(CstrParts(c), "PORT") ==
      (if !Truthy(c.dsn) && !MsDriver(c.driver) && Truthy(c.hostIsServer) && c.port != 0
       then Some(Int(c.port)) else None)
    ensures Lookup(CstrParts(c), "SERVERNAME") ==
      (if !Truthy(c.dsn) && !MsDriver(c.driver) && !Truthy(c.hostIsServer) then Some(Str(c.host)) else None)
    ensures Lookup(CstrParts(c), "UID") == (if Truthy(c.user) then Some(c.user) else None)
    ensures Lookup(CstrParts(c), "PWD") ==
      (if Truthy(c.user) && !Contains(c.extraParams, "Authentication=ActiveDirectoryInteractive")
       then Some(c.password) else None)
    ensures Lookup(CstrParts(c), "Trusted_Connection") ==
      (if !Truthy(c.user) && MsDriver(c.driver) && !Contains(c.extraParams, "Authentication=ActiveDirectoryMsi")
       then Some(c.trustedConnection) else None)
    ensures Lookup(CstrParts(c), "Integrated Security") ==
      (if !Truthy(c.user) && !(MsDriver(c.driver) && !Contains(c.extraParams, "Authentication=ActiveDirectoryMsi"))
       then Some(Str("SSPI")) else None)
    ensures !Truthy(c.user) ==>
      (Lookup(CstrParts(c), "Trusted_Connection").Some? <==> Lookup(CstrParts(c), "Integrated Security").None?)
    ensures Lookup(CstrParts(c), "MARS_Connection") ==
      (if MsDriver(c.driver) && c.isWindows then Some(Str("yes")) else None)
  {
    var pv := Int(c.port);
    AssembleDistinct(c, pv);
    KeyFound(c, pv, "DATABASE");
    DatabaseKeys(c, "DATABASE");
    KeyFound(c, pv, "DSN");
    TargetKeys(c, pv, "DSN");
    KeyFound(c, pv, "DRIVER");
    TargetKeys(c, pv, "DRIVER");
    KeyFound(c, pv, "SERVER");
    TargetKeys(c, pv, "SERVER");
    ServerKeys(c, pv, "SERVER");
    KeyFound(c, pv, "PORT");
    TargetKeys(c, pv, "PORT");
    ServerKeys(c, pv, "PORT");
    KeyFound(c, pv, "SERVERNAME");
    TargetKeys(c, pv, "SERVERNAME");
    ServerKeys(c, pv, "SERVERNAME");
    KeyFound(c, pv, "UID");
    AuthKeys(c, "UID");
    KeyFound(c, pv, "PWD");
    AuthKeys(c, "PWD");
    KeyFound(c, pv, "Trusted_Connection");
    AuthKeys(c, "Trusted_Connection");
    KeyFound(c, pv, "Integrated Security");
    AuthKeys(c, "Integrated Security");
    KeyFound(c, pv, "MARS_Connection");
    DatabaseKeys(c, "MARS_Connection");
  }

  /**
   * As written, a non-Microsoft driver with `host_is_server` and a non-zero
   * port never gets a connection string: PORT holds an `int`, and
   * `encode_value` raises `TypeError` on it.
   */
  lemma HostIsServerPortRaises(c: CstrInput)
    requires !Truthy(c.dsn) && !MsDriver(c.driver) && Truthy(c.hostIsServer) && c.port != 0
    ensures Lookup(CstrParts(c), "PORT") == Some(Int(c.port))
    ensures ConnectionString(CstrParts(c), c.extraParams) == Err(TypeError)
  {
    KeyFound(c, Int(c.port), "PORT");
    TargetKeys(c, Int(c.port), "PORT");
    ServerKeys(c, Int(c.port), "PORT");
    assert CstrParts(c)[1] == ("PORT", Int(c.port));
  }

  /**
   * With the port written as text, PORT holds `str(port)`, and the connection
   * string is built whenever every setting that ends up in it is a string.
   */
  lemma CorrectedPartsEncode(c: CstrInput)
    requires c.dsn.Str? || !Truthy(c.dsn)
    requires Truthy(c.user) ==> c.user.Str? && (c.password.Str? || Contains(c.extraParams, "Authentication=ActiveDirectoryInteractive"))
    requires c.trustedConnection.Str? && c.database.Str?
    ensures Lookup(CstrPartsCorrected(c), "PORT") ==
      (if !Truthy(c.dsn) && !MsDriver(c.driver) && Truthy(c.hostIsServer) && c.port != 0
       then Some(Str(IntToString(c.port))) else None)
    ensures ConnectionString(CstrPartsCorrected(c), c.extraParams).Ok?
  {
    var pv := Str(IntToString(c.port));
    KeyFound(c, pv, "PORT");
    TargetKeys(c, pv, "PORT");
    ServerKeys(c, pv, "PORT");
    var p := CstrPartsCorrected(c);
    assert forall i :: 0 <= i < |TargetParts(c, pv)| ==> TargetParts(c, pv)[i].1.Str?;
    assert forall i :: 0 <= i < |AuthParts(c)| ==> AuthParts(c)[i].1.Str?;
    assert forall i :: 0 <= i < |DatabaseParts(c)| ==> DatabaseParts(c)[i].1.Str?;
  }
}

=== FILE: cursors.dfy ===
/**
 * `CursorWrapper`: the adapter's wrapper around the driver's cursor. It
 * closes the native cursor at most once, un-doubles `%%` in the SQL,
 * turns booleans into 1/0 before they reach the driver, remembers the last
 * statement, reports driver errors to its `DatabaseWrapper`, and decodes
 * byte fields of fetched rows with the configured charset.
 *
 * The native cursor is represented by the sequence of calls made on it
 * (`calls`) and by what it returns, given as parameters. `smart_str` and
 * `bytes.decode(charset)` are parameters (`decode` returns `None` where
 * Python raises `UnicodeDecodeError`).
 */
module Cursors {
  import opened Text
  import opened PyValues
  import opened Backend

  /** A call made on the native cursor. */
  datatype NativeCall =
    | NativeExecute(sql: string, params: seq<Value>)
    | NativeExecuteMany(sql: string, paramsList: seq<seq<Value>>)
    | NativeFetchOne
    | NativeFetchMany(chunk: int)
    | NativeFetchAll
    | NativeNextSet
    | NativeClose

  /** The number of times the native cursor was closed. */
  function CloseCount(calls: seq<NativeCall>): nat
  {
    if calls == [] then 0
    else CloseCount(calls[..|calls| - 1]) + (if calls[|calls| - 1] == NativeClose then 1 else 0)
  }

  lemma {:induction false} CloseCountAppend(calls: seq<NativeCall>, more: seq<NativeCall>)
    ensures CloseCount(calls + more) == CloseCount(calls) + CloseCount(more)
    decreases |more|
  {
    if more == [] {
      assert calls + more == calls;
    } else {
      var last := more[|more| - 1];
      assert (calls + more)[..|calls + more| - 1] == calls + more[..|more| - 1];
      CloseCountAppend(calls, more[..|more| - 1]);
    }
  }

  /** `format_sql`: text has `%%` turned into `%`; a query that is not text has no `encode`. */
  function FormatSql(query: Value): (r: Result<string>)
    ensures r.Err? <==> !query.Str?
    ensures r.Err? ==> r.error == AttributeError
    ensures r.Ok? ==> |r.value| == |query.s| - Count(query.s, "%%")
  {
    if query.Str? then ReplaceLength(query.s, "%%", "%"); Ok(Replace(query.s, "%%", "%")) else Err(AttributeError)
  }

  /** A query text whose literal `%` signs were doubled comes out of `format_sql` as it was. */
  lemma FormatSqlUndoesDoubling(s: string)
    ensures FormatSql(Str(Replace(s, "%", "%%"))) == Ok(s)
  {
    UndoubleDouble(s, '%');
  }

  /** A query without `%%` passes through `format_sql` unchanged. */
  lemma FormatSqlPlain(s: string)
    requires !Contains(s, "%%")
    ensures FormatSql(Str(s)) == Ok(s)
  {
    ReplaceAbsent(s, "%%", "%");
  }

  /**
   * `if self.driver_charset:`: a charset is configured and is not empty
   * text, which Python treats as false.
   */
  predicate HasCharset(charset: Option<string>)
  {
    charset.Some? && charset.value != ""
  }

  /**
   * One parameter as `format_params` passes it to the driver: text goes
   * through `smart_str` when a charset is set, booleans become 1 or 0,
   * everything else is passed as it is. No boolean reaches the driver.
   */
  function FormatParam(p: Value, charset: Option<string>, smartStr: (string, string) -> string): (r: Value)
    ensures !r.Bool?
    ensures p.Bool? ==> r == Int(if p.b then 1 else 0)
    ensures !p.Bool? && !p.Str? ==> r == p
    ensures p.Str? ==> r.Str? && (!HasCharset(charset) ==> r == p)
    ensures p.Str? && HasCharset(charset) ==> r == Str(smartStr(p.s, charset.value))
  {
    match p
    case Str(s) => if HasCharset(charset) then Str(smartStr(s, charset.value)) else p
    case Bytes(_) => p
    case Bool(b) => if b then Int(1) else Int(0)
    case _ => p
  }

  /** Without a charset (none, or empty), formatting a parameter twice is formatting it once. */
  lemma FormatParamIdempotent(p: Value, charset: Option<string>, smartStr: (string, string) -> string)
    requires !HasCharset(charset)
    ensures FormatParam(FormatParam(p, charset, smartStr), charset, smartStr) == FormatParam(p, charset, smartStr)
  {
  }

  /** One field of `format_row`: with a charset, bytes are decoded with it. */
  function DecodeRowField(f: Value, charset: Option<string>, decode: (seq<byte>, string) -> Option<string>): Result<Value>
  {
    if HasCharset(charset) && f.Bytes? then
      match decode(f.data, charset.value)
      case Some(s) => Ok(Str(s))
      case None => Err(UnicodeDecodeError)
    else Ok(f)
  }

  /** `format_row` on the row's values: every field decodes, or the row raises. */
  function FormatRowValues(row: seq<Value>, charset: Option<string>,
                           decode: (seq<byte>, string) -> Option<string>): Result<seq<Value>>
  {
    if forall i :: 0 <= i < |row| ==> DecodeRowField(row[i], charset, decode).Ok? then
      Ok(seq(|row|, i requires 0 <= i < |row| => DecodeRowField(row[i], charset, decode).value))
    else Err(UnicodeDecodeError)
  }

  /**
   * A formatted row has the row's length, only its byte fields change, and
   * without a charset it is the row itself.
   */
  lemma FormatRowValuesSpec(row: seq<Value>, charset: Option<string>, decode: (seq<byte>, string) -> Option<string>)
    ensures var r := FormatRowValues(row, charset, decode);
      && (r.Ok? ==> |r.value| == |row|)
      && (r.Ok? ==> forall i :: 0 <= i < |row| && !row[i].Bytes? ==> r.value[i] == row[i])
      && (r.Ok? ==> forall i :: 0 <= i < |row| && row[i].Bytes? && HasCharset(charset) ==>
            r.value[i].Str? && decode(row[i].data, charset.value) == Some(r.value[i].s))
      && (!HasCharset(charset) ==> r == Ok(row))
      && (r.Err? ==> HasCharset(charset) && exists i :: 0 <= i < |row| && row[i].Bytes? && decode(row[i].data, charset.value).None?)
  {
    var r := FormatRowValues(row, charset, decode);
    if !HasCharset(charset) {
      assert r.Ok?;
      assert r.value == row;
    }
  }

  /** `format_rows`: every row formatted, or the first failure raised. */
  function FormatRows(rows: seq<seq<Value>>, charset: Option<string>,
                      decode: (seq<byte>, string) -> Option<string>): (r: Result<seq<seq<Value>>>)
    ensures r.Ok? ==> |r.value| == |rows|
    ensures r.Ok? ==> forall i :: 0 <= i < |rows| ==> FormatRowValues(rows[i], charset, decode) == Ok(r.value[i])
    ensures r.Err? ==> exists i :: 0 <= i < |rows| && FormatRowValues(rows[i], charset, decode).Err?
  {
    if rows == [] then Ok([])
    else match FormatRowValues(rows[0], charset, decode)
      case Err(e) => Err(e)
      case Ok(first) =>
        match FormatRows(rows[1..], charset, decode)
        case Err(e) => Err(e)
        case Ok(rest) => Ok([first] + rest)
  }

  /** Each parameter set of `formatted` is the corresponding one of `paramsList`, formatted. */
  predicate FormattedList(formatted: seq<seq<Value>>, paramsList: seq<seq<Value>>, charset: Option<string>,
                          smartStr: (string, string) -> string)
  {
    && |formatted| == |paramsList|
    && (forall k :: 0 <= k < |paramsList| ==> |formatted[k]| == |paramsList[k]|)
    && (forall k, i :: 0 <= k < |paramsList| && 0 <= i < |paramsList[k]| ==>
          formatted[k][i] == FormatParam(paramsList[k][i], charset, smartStr))
  }

  /** `execute` hands a driver exception to `_on_error` when it is a `Database.Error` or an `MSSQLDatabaseException`. */
  predicate ExecuteReports(sql: Value, driverRaises: Option<Error>)
  {
    sql.Str? && driverRaises.Some? && driverRaises.value.DriverError?
    && driverRaises.value.kind in {DatabaseError, MssqlException}
  }

  /** `executemany` hands a driver exception to `_on_error` only when it is a `Database.Error`. */
  predicate ExecuteManyReports(sql: Value, paramsList: seq<seq<Value>>, driverRaises: Option<Error>)
  {
    paramsList != [] && sql.Str? && driverRaises.Some? && driverRaises.value.DriverError?
    && driverRaises.value.kind == DatabaseError
  }

  /**
   * What `_on_error` leaves of the wrapper, given the wrapper's state before:
   * a network error code clears the connection, counts a wait unless
   * `close` fails, and marks the transaction for rollback when an open
   * connection is closed inside an atomic block; nothing else of the
   * wrapper changes.
   */
  twostate predicate AfterOnError(w: DatabaseWrapper, reported: bool, arg0: Value, inAtomicBlock: bool, closeFails: bool)
    reads w
  {
    var network := reported && arg0 in NetworkErrorCodes;
    && w.connection == (if network then None else old(w.connection))
    && w.recoveryWaits == old(w.recoveryWaits) + (if network && !closeFails then 1 else 0)
    && w.needsRollback == (old(w.needsRollback) || (network && inAtomicBlock && old(w.connection).Some?))
    && w.log == old(w.log) && w.tranCount == old(w.tranCount)
    && w.operators == old(w.operators) && w.dataTypes == old(w.dataTypes) && w.driverCharset == old(w.driverCharset)
    && w.supportsMars == old(w.supportsMars) && w.isSqlAzure == old(w.isSqlAzure)
  }

  class CursorWrapper {
    var active: bool
    const connection: DatabaseWrapper
    var driverCharset: Option<string>
    var lastSql: Value
    var lastParams: seq<Value>
    /** The calls made on the native cursor, oldest first. */
    var calls: seq<NativeCall>

    /** The native cursor has been closed exactly when the wrapper is inactive, and then once. */
    ghost predicate Valid()
      reads this
    {
      CloseCount(calls) == (if active then 0 else 1)
    }

    constructor (connection: DatabaseWrapper)
      ensures Valid() && active
      ensures this.connection == connection && driverCharset == connection.driverCharset
      ensures lastSql == Str("") && lastParams == [] && calls == []
    {
      active := true;
      this.connection := connection;
      driverCharset := connection.driverCharset;
      lastSql := Str("");
      lastParams := [];
      calls := [];
    }

    /** `close`: the native cursor is closed on the first call only. */
    method Close()
      requires Valid()
      modifies this
      ensures Valid() && !active
      ensures calls == old(calls) + (if old(active) then [NativeClose] else [])
      ensures CloseCount(calls) == 1
      ensures lastSql == old(lastSql) && lastParams == old(lastParams) && driverCharset == old(driverCharset)
    {
      if active {
        active := false;
        CloseCountAppend(calls, [NativeClose]);
        calls := calls + [NativeClose];
      }
    }

    /** `format_params`: the parameters formatted one by one, in order; `None` gives no parameters. */
    method FormatParams(params: Option<seq<Value>>, smartStr: (string, string) -> string) returns (fp: seq<Value>)
      ensures params.None? ==> fp == []
      ensures params.Some? ==> |fp| == |params.value|
      ensures params.Some? ==> forall i :: 0 <= i < |fp| ==> fp[i] == FormatParam(params.value[i], driverCharset, smartStr)
    {
      fp := [];
      if params.Some? {
        var ps := params.value;
        var i := 0;
        while i < |ps|
          invariant 0 <= i <= |ps|
          invariant |fp| == i
          invariant forall j :: 0 <= j < i ==> fp[j] == FormatParam(ps[j], driverCharset, smartStr)
        {
          var p := ps[i];
          if p.Str? {
            if driverCharset.Some? && driverCharset.value != "" {
              fp := fp + [Str(smartStr(p.s, driverCharset.value))];
            } else {
              fp := fp + [p];
            }
          } else if p.Bytes? {
            fp := fp + [p];
          } else if p.Bool? {
            if p.b {
              fp := fp + [Int(1)];
            } else {
              fp := fp + [Int(0)];
            }
          } else {
            fp := fp + [p];
          }
          i := i + 1;
        }
      }
    }

    /**
     * `execute`: the original statement is remembered before formatting,
     * the formatted parameters after. A `Database.Error` or
     * `MSSQLDatabaseException` from the driver goes to `_on_error` and is
     * raised again; any other exception passes through. `inAtomicBlock` is
     * whether Django's atomic block is open when `_on_error` closes the
     * connection.
     */
    method Execute(sql: Value, params: Option<seq<Value>>, smartStr: (string, string) -> string,
                   driverRaises: Option<Error>, inAtomicBlock: bool, closeFails: bool) returns (err: Option<Error>)
      requires Valid()
      modifies this, connection
      ensures Valid() && active == old(active)
      ensures lastSql == sql
      ensures !sql.Str? ==> err == Some(AttributeError) && calls == old(calls) && lastParams == old(lastParams)
      ensures sql.Str? ==> |lastParams| == (if params.Some? then |params.value| else 0)
      ensures sql.Str? ==> forall i :: 0 <= i < |lastParams| ==>
        lastParams[i] == FormatParam(params.value[i], driverCharset, smartStr)
      ensures sql.Str? ==> calls == old(calls) + [NativeExecute(FormatSql(sql).value, lastParams)]
      ensures sql.Str? ==> err == driverRaises
      ensures AfterOnError(connection, ExecuteReports(sql, driverRaises),
                           if driverRaises.Some? && driverRaises.value.DriverError? then driverRaises.value.arg0 else Null,
                           inAtomicBlock, closeFails)
      ensures driverCharset == old(driverCharset)
    {
      lastSql := sql;
      var query := FormatSql(sql);
      if query.Err? {
        return Some(query.error);
      }
      var fp := FormatParams(params, smartStr);
      lastParams := fp;
      CloseCountAppend(calls, [NativeExecute(query.value, fp)]);
      calls := calls + [NativeExecute(query.value, fp)];
      err := driverRaises;
      if driverRaises.Some? {
        var e := driverRaises.value;
        if e.DriverError? && e.kind in {DatabaseError, MssqlException} {
          connection.OnError(e.arg0, inAtomicBlock, closeFails);
        }
      }
    }

    /**
     * `executemany`: an empty parameter list makes no driver call. Otherwise
     * every parameter set is formatted and passed in one call; only a
     * `Database.Error` goes to `_on_error`. The last statement is not
     * remembered.
     */
    method ExecuteMany(sql: Value, paramsList: seq<seq<Value>>, smartStr: (string, string) -> string,
                       driverRaises: Option<Error>, inAtomicBlock: bool, closeFails: bool) returns (err: Option<Error>)
      requires Valid()
      modifies this, connection
      ensures Valid() && active == old(active)
      ensures lastSql == old(lastSql) && lastParams == old(lastParams) && driverCharset == old(driverCharset)
      ensures paramsList == [] ==> err == None && calls == old(calls)
      ensures paramsList != [] && !sql.Str? ==> err == Some(AttributeError) && calls == old(calls)
      ensures paramsList != [] && sql.Str? ==> err == driverRaises && |calls| == |old(calls)| + 1
      ensures paramsList != [] && sql.Str? ==>
        (calls[|calls| - 1].NativeExecuteMany? && calls[|calls| - 1].sql == FormatSql(sql).value
         && FormattedList(calls[|calls| - 1].paramsList, paramsList, driverCharset, smartStr))
      ensures AfterOnError(connection, ExecuteManyReports(sql, paramsList, driverRaises),
                           if driverRaises.Some? && driverRaises.value.DriverError? then driverRaises.value.arg0 else Null,
                           inAtomicBlock, closeFails)
    {
      if paramsList == [] {
        return None;
      }
      var query := FormatSql(sql);
      if query.Err? {
        return Some(query.error);
      }
      var formatted: seq<seq<Value>> := [];
      var k := 0;
      while k < |paramsList|
        invariant 0 <= k <= |paramsList|
        invariant unchanged(this) && unchanged(connection)
        invariant FormattedList(formatted, paramsList[..k], driverCharset, smartStr)
      {
        var fp := FormatParams(Some(paramsList[k]), smartStr);
        formatted := formatted + [fp];
        assert paramsList[..k + 1] == paramsList[..k] + [paramsList[k]];
        k := k + 1;
      }
      assert paramsList[..k] == paramsList;
      CloseCountAppend(calls, [NativeExecuteMany(query.value, formatted)]);
      calls := calls + [NativeExecuteMany(query.value, formatted)];
      err := driverRaises;
      if driverRaises.Some? {
        var e := driverRaises.value;
        if e.DriverError? && e.kind == DatabaseError {
          connection.OnError(e.arg0, inAtomicBlock, closeFails);
        }
      }
    }

    /**
     * `format_row`, in place: with a charset, each byte field is replaced by
     * its decoded text, left to right; a field that does not decode raises,
     * leaving the fields before it already replaced.
     */
    method FormatRow(row: array<Value>, decode: (seq<byte>, string) -> Option<string>) returns (r: Result<seq<Value>>)
      modifies row
      ensures r == FormatRowValues(old(row[..]), driverCharset, decode)
      ensures r.Ok? ==> row[..] == r.value
      ensures r.Err? ==>
        exists k :: (0 <= k < row.Length && DecodeRowField(old(row[k]), driverCharset, decode).Err?
                     && row[k..] == old(row[k..])
                     && forall i :: 0 <= i < k ==> Ok(row[i]) == DecodeRowField(old(row[i]), driverCharset, decode))
    {
      ghost var o := row[..];
      var charset := driverCharset;
      if charset.Some? && charset.value != "" {
        var i := 0;
        while i < row.Length
          invariant 0 <= i <= row.Length
          invariant row[i..] == o[i..]
          invariant forall j :: 0 <= j < i ==> Ok(row[j]) == DecodeRowField(o[j], charset, decode)
        {
          var f := row[i];
          if f.Bytes? {
            var s := decode(f.data, charset.value);
            if s.None? {
              assert DecodeRowField(o[i], charset, decode).Err? by {
                assert o[i] == o[i..][0];
              }
              assert row[i..] == old(row[i..]);
              return Err(UnicodeDecodeError);
            }
            row[i] := Str(s.value);
          }
          assert row[i + 1..] == o[i + 1..] by {
            assert forall j :: i + 1 <= j < row.Length ==> row[j] == o[i..][j - i];
          }
          assert o[i] == o[i..][0];
          i := i + 1;
        }
      }
      r := Ok(row[..]);
      assert forall j :: 0 <= j < |o| ==> DecodeRowField(o[j], charset, decode) == Ok(row[..][j]);
      assert seq(|o|, j requires 0 <= j < |o| => DecodeRowField(o[j], charset, decode).value) == row[..];
    }

    /**
     * `fetchone`: the row, if any, is formatted; then, without MARS, the
     * rest of the result set is discarded with `nextset()`.
     */
    method FetchOne(nativeRow: Option<array<Value>>, decode: (seq<byte>, string) -> Option<string>)
      returns (r: Result<Option<seq<Value>>>)
      requires Valid()
      modifies this, if nativeRow.Some? then {nativeRow.value} else {}
      ensures Valid() && active == old(active)
      ensures nativeRow.None? ==> r == Ok(None)
      ensures nativeRow.Some? ==> (r.Ok? <==> FormatRowValues(old(nativeRow.value[..]), driverCharset, decode).Ok?)
      ensures nativeRow.Some? && r.Ok? ==> r.value == Some(FormatRowValues(old(nativeRow.value[..]), driverCharset, decode).value)
      ensures nativeRow.Some? && r.Ok? ==> nativeRow.value[..] == r.value.value
      ensures nativeRow.Some? && r.Err? ==>
        exists k :: (0 <= k < nativeRow.value.Length
                     && DecodeRowField(old(nativeRow.value[k]), driverCharset, decode).Err?
                     && nativeRow.value[k..] == old(nativeRow.value[k..])
                     && forall i :: 0 <= i < k ==>
                          Ok(nativeRow.value[i]) == DecodeRowField(old(nativeRow.value[i]), driverCharset, decode))
      ensures r.Ok? ==> calls == old(calls) + [NativeFetchOne] + (if connection.supportsMars then [] else [NativeNextSet])
      ensures r.Err? ==> calls == old(calls) + [NativeFetchOne]
      ensures lastSql == old(lastSql) && lastParams == old(lastParams) && driverCharset == old(driverCharset)
    {
      CloseCountAppend(calls, [NativeFetchOne]);
      calls := calls + [NativeFetchOne];
      r := Ok(None);
      if nativeRow.Some? {
        var formatted := FormatRow(nativeRow.value, decode);
        if formatted.Err? {
          return Err(formatted.error);
        }
        r := Ok(Some(formatted.value));
      }
      if !connection.supportsMars {
        CloseCountAppend(calls, [NativeNextSet]);
        calls := calls + [NativeNextSet];
      }
    }

    /** `fetchmany`: the driver's rows, each formatted. */
    method FetchMany(chunk: int, nativeRows: seq<seq<Value>>, decode: (seq<byte>, string) -> Option<string>)
      returns (r: Result<seq<seq<Value>>>)
      requires Valid()
      modifies this
      ensures Valid() && active == old(active)
      ensures r == FormatRows(nativeRows, driverCharset, decode)
      ensures calls == old(calls) + [NativeFetchMany(chunk)]
      ensures lastSql == old(lastSql) && lastParams == old(lastParams) && driverCharset == old(driverCharset)
    {
      CloseCountAppend(calls, [NativeFetchMany(chunk)]);
      calls := calls + [NativeFetchMany(chunk)];
      r := FormatRows(nativeRows, driverCharset, decode);
    }

    /** `fetchall`: all remaining rows, each formatted. */
    method FetchAll(nativeRows: seq<seq<Value>>, decode: (seq<byte>, string) -> Option<string>)
      returns (r: Result<seq<seq<Value>>>)
      requires Valid()
      modifies this
      ensures Valid() && active == old(active)
      ensures r == FormatRows(nativeRows, driverCharset, decode)
      ensures calls == old(calls) + [NativeFetchAll]
      ensures lastSql == old(lastSql) && lastParams == old(lastParams) && driverCharset == old(driverCharset)
    {
      CloseCountAppend(calls, [NativeFetchAll]);
      calls := calls + [NativeFetchAll];
      r := FormatRows(nativeRows, driverCharset, decode);
    }
  }
}

=== FILE: fields.dfy ===
/**
 * The custom model fields of `mssql_arm.fields`: the type tags they report
 * through `get_internal_type`, which select their column types in
 * `DatabaseWrapper.data_types`; the normaliser that turns SQL Server's
 * `" +hh:mm"` offsets into ISO 8601; and the `None` handling of
 * `BigAutoField` and `DateTimeOffsetField`.
 */
module Fields {
  import opened Text
  import opened PyValues
  import opened TypeTables

  /** The field classes defined in `fields.py` that report their own type tag. */
  datatype CustomField =
    | NCharField
    | AutoDecimalField
    | BigAutoField
    | DateField
    | DateTimeField
    | DateTimeOffsetField
    | TimeField
    | LegacyDateField
    | LegacyDateTimeField
    | LegacyTimeField

  /** `get_internal_type()` of each custom field. */
  function InternalType(f: CustomField): string
  {
    match f
    case NCharField => "NCharField"
    case AutoDecimalField => "AutoDecimalField"
    case BigAutoField => "BigAutoField"
    case DateField => "NewDateField"
    case DateTimeField => "NewDateTimeField"
    case DateTimeOffsetField => "DateTimeOffsetField"
    case TimeField => "NewTimeField"
    case LegacyDateField => "LegacyDateField"
    case LegacyDateTimeField => "LegacyDateTimeField"
    case LegacyTimeField => "LegacyTimeField"
  }

  /**
   * Every tag has a column type. The new temporal fields use `date`,
   * `datetime2` and `time`; the legacy ones `datetime`, except
   * `LegacyTimeField`, which is stored as `time`.
   */
  lemma InternalTypesHaveColumns(f: CustomField)
    ensures InternalType(f) in DataTypes
    ensures f == DateField ==> DataTypes[InternalType(f)] == "date"
    ensures f == DateTimeField ==> DataTypes[InternalType(f)] == "datetime2"
    ensures f == TimeField ==> DataTypes[InternalType(f)] == "time"
    ensures f == LegacyDateField ==> DataTypes[InternalType(f)] == "datetime"
    ensures f == LegacyDateTimeField ==> DataTypes[InternalType(f)] == "datetime"
    ensures f == LegacyTimeField ==> DataTypes[InternalType(f)] == "time"
    ensures f == BigAutoField ==> DataTypes[InternalType(f)] == "bigint" && InternalType(f) in AutoFieldTypes
  {
    match f
    case NCharField =>
    case AutoDecimalField =>
    case BigAutoField =>
    case DateField =>
    case DateTimeField =>
    case DateTimeOffsetField =>
    case TimeField =>
    case LegacyDateField =>
    case LegacyDateTimeField =>
    case LegacyTimeField =>
  }

  /**
   * The 2005 override of `_cursor` rewrites Django's own temporal tags
   * only, so the custom fields keep their column types on every server.
   */
  lemma LegacyOverrideKeepsCustomFields(f: CustomField)
    ensures InternalType(f) in LegacyDataTypes(DataTypes)
    ensures LegacyDataTypes(DataTypes)[InternalType(f)] == DataTypes[InternalType(f)]
  {
    InternalTypesHaveColumns(f);
    assert InternalType(f) !in {"DateField", "DateTimeField", "TimeField"};
  }

  /**
   * `convert_microsoft_date_to_isoformat`: in text, each `" +"` becomes
   * `"+"`, then each `" -"` becomes `"-"`; anything else is returned as it is.
   */
  function ConvertMicrosoftDateToIsoformat(v: Value): (r: Value)
    ensures !v.Str? ==> r == v
    ensures v.Str? ==> r.Str? && |r.s| == |v.s| - Count(v.s, " +") - Count(Replace(v.s, " +", "+"), " -")
  {
    match v
    case Str(s) =>
      var plus := Replace(s, " +", "+");
      ReplaceLength(s, " +", "+");
      ReplaceLength(plus, " -", "-");
      Str(Replace(plus, " -", "-"))
    case _ => v
  }

  /** Text with no space before a sign is already in ISO form and is returned unchanged. */
  lemma ConvertWithoutSpacedSign(s: string)
    requires !Contains(s, " +") && !Contains(s, " -")
    ensures ConvertMicrosoftDateToIsoformat(Str(s)) == Str(s)
  {
    ReplaceAbsent(s, " +", "+");
    ReplaceAbsent(s, " -", "-");
  }

  /**
   * A timestamp written by SQL Server, `<date time> <sign><offset>`, loses
   * the space before the sign of its offset and nothing else, provided the
   * timestamp part has no spaced sign of its own and the offset no space.
   */
  lemma {:induction false} ConvertSpacedOffset(dt: string, sign: char, off: string)
    requires sign == '+' || sign == '-'
    requires !Contains(dt, " +") && !Contains(dt, " -") && ' ' !in off
    ensures ConvertMicrosoftDateToIsoformat(Str(dt + " " + [sign] + off)) == Str(dt + [sign] + off)
  {
    assert " +" == [' ', '+'] && " -" == [' ', '-'];
    NoSpacedSignIn(" ", '+');
    NoSpacedSignIn(" ", '-');
    NoSpacedSignIn(off, '+');
    NoSpacedSignIn(off, '-');
    NoSpacedSignIn([sign], '+');
    NoSpacedSignIn([sign], '-');
    assert dt + " " + [sign] + off == dt + [' ', sign] + off;
    if sign == '+' {
      NoSpacedSignAcross(dt, " ", '+');
      ReplaceAround(dt, off, " +", "+");
      NoSpacedSignAcross([sign], off, '-');
      NoSpacedSignAcross(dt, [sign] + off, '-');
      assert dt + "+" + off == dt + ([sign] + off);
      ReplaceAbsent(dt + "+" + off, " -", "-");
    } else {
      NoSpacedSignAcross(dt, " ", '+');
      NoSpacedSignAcross(dt + " ", [sign], '+');
      NoSpacedSignAcross(dt + " " + [sign], off, '+');
      ReplaceAbsent(dt + " " + [sign] + off, " +", "+");
      NoSpacedSignAcross(dt, " ", '-');
      ReplaceAround(dt, off, " -", "-");
    }
  }

  /** A text with no space, or no sign, holds no spaced sign. */
  lemma NoSpacedSignIn(s: string, sign: char)
    requires ' ' !in s || sign !in s
    ensures !Contains(s, [' ', sign])
  {
    if Contains(s, [' ', sign]) {
      ContainsKeepsChars(s, [' ', sign], 0);
      ContainsKeepsChars(s, [' ', sign], 1);
    }
  }

  /** Joining two texts with no spaced sign makes one only if the first ends in a space and the second starts with the sign. */
  lemma {:induction false} NoSpacedSignAcross(a: string, b: string, sign: char)
    requires !Contains(a, [' ', sign]) && !Contains(b, [' ', sign])
    requires !(|a| > 0 && |b| > 0 && a[|a| - 1] == ' ' && b[0] == sign)
    ensures !Contains(a + b, [' ', sign])
  {
    if Contains(a + b, [' ', sign]) {
      ContainsConcat(a, b, [' ', sign]);
    }
  }

  /** The timestamp part of `2020-01-01 10:00 +01:00` has no spaced sign. */
  lemma ExampleTimestampHasNoSpacedSign(date: string, time: string)
    requires date == "2020-01-01" && time == "10:00"
    ensures !Contains(date + " " + time, " +") && !Contains(date + " " + time, " -")
  {
    assert " +" == [' ', '+'] && " -" == [' ', '-'];
    NoSpacedSignIn(date, '+');
    NoSpacedSignIn(date, '-');
    NoSpacedSignIn(" " + time, '+');
    NoSpacedSignIn(" " + time, '-');
    NoSpacedSignAcross(date, " " + time, '+');
    NoSpacedSignAcross(date, " " + time, '-');
    assert date + (" " + time) == date + " " + time;
  }

  /** So `2020-01-01 10:00 +01:00` becomes `2020-01-01 10:00+01:00`. */
  lemma ConvertExample(date: string, time: string)
    requires date == "2020-01-01" && time == "10:00"
    ensures ConvertMicrosoftDateToIsoformat(Str(date + " " + time + " +01:00")) == Str(date + " " + time + "+01:00")
  {
    var dt := date + " " + time;
    ExampleTimestampHasNoSpacedSign(date, time);
    ConvertSpacedOffset(dt, '+', "01:00");
    assert dt + " " + ['+'] + "01:00" == date + " " + time + " +01:00";
    assert dt + ['+'] + "01:00" == date + " " + time + "+01:00";
  }

  const MustBeInt := "This value must be a int."

  /** `BigAutoField.to_python`: `None` stays `None`; anything `int()` rejects is a validation error. */
  function BigAutoToPython(v: Value): (r: Result<Value>)
    ensures v == Null ==> r == Ok(Null)
    ensures v != Null ==> (r.Ok? <==> PyInt(v).Ok?)
    ensures v != Null && r.Ok? ==> r.value == Int(PyInt(v).value)
    ensures r.Err? ==> r.error == ValidationError(MustBeInt)
  {
    if v == Null then Ok(Null)
    else match PyInt(v)
      case Ok(n) => Ok(Int(n))
      case Err(_) => Err(ValidationError(MustBeInt))
  }

  /** `BigAutoField.get_db_prep_value`: `None` stays `None`; otherwise `int(value)`, whose errors propagate. */
  function BigAutoDbPrepValue(v: Value): (r: Result<Value>)
    ensures v == Null ==> r == Ok(Null)
    ensures v != Null ==> (r.Ok? <==> PyInt(v).Ok?)
    ensures r.Err? ==> r.error in {TypeError, ValueError}
  {
    if v == Null then Ok(Null)
    else match PyInt(v)
      case Ok(n) => Ok(Int(n))
      case Err(e) => Err(e)
  }

  /**
   * The value stored for a primary key is the value read back for it:
   * both accept the same inputs and give the same integer, and an integer
   * or its decimal text passes through unchanged.
   */
  lemma BigAutoPrepAgreesWithToPython(v: Value)
    ensures BigAutoDbPrepValue(v).Ok? <==> BigAutoToPython(v).Ok?
    ensures BigAutoDbPrepValue(v).Ok? ==> BigAutoDbPrepValue(v) == BigAutoToPython(v)
    ensures forall n: int :: BigAutoToPython(Int(n)) == Ok(Int(n))
  {
  }

  /** Decimal text is read as its integer. */
  lemma BigAutoToPythonOfText(n: int)
    ensures BigAutoToPython(Str(IntToString(n))) == Ok(Int(n))
    ensures BigAutoDbPrepValue(Str(IntToString(n))) == Ok(Int(n))
  {
    PyIntOfDecimal(n);
  }

  /**
   * `DateTimeOffsetField.get_db_prep_value`: unless already prepared, the
   * value goes through `get_prep_value` first; `None` then stays `None`,
   * and anything else is written with `isoformat()`.
   */
  function DateTimeOffsetDbPrepValue(v: Value, prepared: bool, getPrepValue: Value -> Value,
                                     isoformat: Value -> Result<string>): (r: Result<Value>)
    ensures (if prepared then v else getPrepValue(v)) == Null ==> r == Ok(Null)
    ensures (if prepared then v else getPrepValue(v)) != Null ==>
      (r.Ok? <==> isoformat(if prepared then v else getPrepValue(v)).Ok?) && (r.Ok? ==> r.value.Str?)
    ensures var x := if prepared then v else getPrepValue(v);
      x != Null ==> r == (if isoformat(x).Ok? then Ok(Str(isoformat(x).value)) else Err(isoformat(x).error))
  {
    var value := if prepared then v else getPrepValue(v);
    if value == Null then Ok(Null)
    else match isoformat(value)
      case Ok(s) => Ok(Str(s))
      case Err(e) => Err(e)
  }
}

=== FILE: rowdecode.dfy ===
/**
 * The row decoders of base.py: `row_decode_all` turns each raw value the
 * driver returned into text or into an unsigned integer read from its bytes,
 * and `row_decode_str` / `row_decode_int` are the single-value primitives.
 *
 * UTF-8 decoding (`bytes.decode('utf-8')`) and `str.isprintable` belong to
 * Python and are parameters here: `utf8` returns `None` where Python raises
 * `UnicodeDecodeError`. The host byte order (`sys.byteorder`) is a parameter
 * too.
 */
module RowDecode {
  import opened Text
  import opened PyValues

  datatype ByteOrder = Little | Big

  function Pow256(n: nat): (r: nat)
    ensures r > 0
  {
    if n == 0 then 1 else 256 * Pow256(n - 1)
  }

  /** `int.from_bytes(b, 'little', signed=False)`. */
  function FromLittle(b: seq<byte>): nat
  {
    if b == [] then 0 else (b[0] as nat) + 256 * FromLittle(b[1..])
  }

  function Reverse(b: seq<byte>): (r: seq<byte>)
    ensures |r| == |b|
  {
    if b == [] then [] else Reverse(b[1..]) + [b[0]]
  }

  /** `int.from_bytes(b, order, signed=False)`. */
  function FromBytes(b: seq<byte>, order: ByteOrder): nat
  {
    match order
    case Little => FromLittle(b)
    case Big => FromLittle(Reverse(b))
  }

  /** `n.to_bytes(len, 'little')`, defined when `n` fits in `len` bytes. */
  function ToLittle(n: nat, len: nat): (r: seq<byte>)
    ensures |r| == len
  {
    if len == 0 then [] else [(n % 256) as byte] + ToLittle(n / 256, len - 1)
  }

  /** `n.to_bytes(len, order)`. */
  function ToBytes(n: nat, len: nat, order: ByteOrder): (r: seq<byte>)
    ensures |r| == len
  {
    match order
    case Little => ToLittle(n, len)
    case Big => Reverse(ToLittle(n, len))
  }

  lemma {:induction false} FromLittleBound(b: seq<byte>)
    ensures FromLittle(b) < Pow256(|b|)
  {
    if b != [] {
      FromLittleBound(b[1..]);
    }
  }

  lemma {:induction false} ToFromLittle(b: seq<byte>)
    ensures ToLittle(FromLittle(b), |b|) == b
  {
    if b != [] {
      var n := FromLittle(b);
      assert n % 256 == b[0] as nat;
      assert n / 256 == FromLittle(b[1..]);
      ToFromLittle(b[1..]);
    }
  }

  lemma {:induction false} ReverseReverse(b: seq<byte>)
    ensures Reverse(Reverse(b)) == b
  {
    if b != [] {
      ReverseReverse(b[1..]);
      ReverseAppend(Reverse(b[1..]), [b[0]]);
      assert Reverse([b[0]]) == [b[0]];
      assert [b[0]] + b[1..] == b;
    }
  }

  lemma {:induction false} ReverseAppend(a: seq<byte>, c: seq<byte>)
    ensures Reverse(a + c) == Reverse(c) + Reverse(a)
  {
    if a == [] {
      assert a + c == c;
    } else {
      assert (a + c)[1..] == a[1..] + c;
      ReverseAppend(a[1..], c);
    }
  }

  /**
   * The integer read from `b` is below `256^len(b)`, and writing it back in
   * the same byte order and width gives `b` again: no byte is lost.
   */
  lemma FromBytesRoundTrip(b: seq<byte>, order: ByteOrder)
    ensures FromBytes(b, order) < Pow256(|b|)
    ensures ToBytes(FromBytes(b, order), |b|, order) == b
  {
    match order
    case Little =>
      FromLittleBound(b);
      ToFromLittle(b);
    case Big =>
      FromLittleBound(Reverse(b));
      ToFromLittle(Reverse(b));
      ReverseReverse(b);
  }

  /** `row_decode_int(row, byteorder, signed=False)`: bytes become an integer, other values pass. */
  function RowDecodeInt(v: Value, order: ByteOrder): (r: Value)
    ensures !v.Bytes? ==> r == v
    ensures v.Bytes? ==> r.Int? && 0 <= r.n < Pow256(|v.data|) && ToBytes(r.n, |v.data|, order) == v.data
  {
    match v
    case Bytes(b) => FromBytesRoundTrip(b, order); Int(FromBytes(b, order))
    case _ => v
  }

  /** `row_decode_str(row)`: valid UTF-8 bytes become text; everything else passes unchanged. */
  function RowDecodeStr(v: Value, utf8: seq<byte> -> Option<string>): (r: Value)
    ensures v.Bytes? && utf8(v.data).Some? ==> r == Str(utf8(v.data).value)
    ensures r.Str? && v.Bytes? ==> utf8(v.data) == Some(r.s)
    ensures !(v.Bytes? && utf8(v.data).Some?) ==> r == v
  {
    match v
    case Bytes(b) => (match utf8(b) case Some(s) => Str(s) case None => v)
    case _ => v
  }

  /** The widths at which short binary values are read as packed integers. */
  predicate IntegerWidth(n: nat)
  {
    n == 1 || n == 2 || n == 4 || n == 8
  }

  /**
   * One field of `row_decode_all`. Values that are not bytes have no
   * `decode` and pass through `row_decode_int` unchanged. Bytes become their
   * text exactly when they are valid UTF-8 and either not 1, 2, 4 or 8 long
   * or printable; otherwise they become an integer below `256^len` that gives
   * the same bytes back.
   */
  function DecodeField(v: Value, utf8: seq<byte> -> Option<string>, printable: string -> bool,
                       order: ByteOrder): (r: Value)
    ensures !v.Bytes? ==> r == v
    ensures v.Bytes? ==>
      (r.Str? <==> utf8(v.data).Some? && !(IntegerWidth(|v.data|) && !printable(utf8(v.data).value)))
    ensures v.Bytes? && r.Str? ==> utf8(v.data) == Some(r.s)
    ensures v.Bytes? && !r.Str? ==> r.Int? && 0 <= r.n < Pow256(|v.data|) && ToBytes(r.n, |v.data|, order) == v.data
  {
    match v
    case Bytes(b) =>
      (match utf8(b)
       case Some(s) => if IntegerWidth(|b|) && !printable(s) then RowDecodeInt(v, order) else Str(s)
       case None => RowDecodeInt(v, order))
    case _ => RowDecodeInt(v, order)
  }

  /** `row_decode_all(row)`: decodes every value, building a new row of the same length. */
  method RowDecodeAll(row: seq<Value>, utf8: seq<byte> -> Option<string>, printable: string -> bool,
                      order: ByteOrder) returns (newRow: seq<Value>)
    ensures |newRow| == |row|
    ensures forall i :: 0 <= i < |row| ==> newRow[i] == DecodeField(row[i], utf8, printable, order)
  {
    newRow := [];
    var k := 0;
    while k < |row|
      invariant 0 <= k <= |row|
      invariant |newRow| == k
      invariant forall i :: 0 <= i < k ==> newRow[i] == DecodeField(row[i], utf8, printable, order)
    {
      var r := row[k];
      if r.Bytes? {
        var decoded := utf8(r.data);
        if decoded.Some? {
          if IntegerWidth(|r.data|) && !printable(decoded.value) {
            newRow := newRow + [RowDecodeInt(r, order)];
          } else {
            newRow := newRow + [Str(decoded.value)];
          }
        } else {
          newRow := newRow + [RowDecodeInt(r, order)];
        }
      } else {
        newRow := newRow + [RowDecodeInt(r, order)];
      }
      k := k + 1;
    }
  }

  /** A two-byte value whose text is not printable comes back as the little-endian integer. */
  lemma ShortBinaryExample(utf8: seq<byte> -> Option<string>, printable: string -> bool)
    requires utf8([1, 2]).Some? && !printable(utf8([1, 2]).value)
    ensures DecodeField(Bytes([1, 2]), utf8, printable, Little) == Int(513)
  {
    assert FromLittle([1, 2]) == 1 + 256 * FromLittle([2]);
    assert FromLittle([2]) == 2 + 256 * FromLittle([]);
  }
}

=== FILE: tables.dfy ===
/**
 * The static tables of `DatabaseWrapper` (column types, identity suffixes,
 * check constraints, lookup operators, known server versions) and the pure
 * rewrites applied to them: the collation suffix on LIKE operators, the
 * legacy temporal override for SQL Server 2005, the version lookup and the
 * engine-edition tests.
 */
module TypeTables {
  import opened Text
  import opened PyValues

  /** `DatabaseWrapper.data_types`: field type tag to column type template. */
  const DataTypes: map<string, string> := map[
    "AutoDecimalField" := "decimal(%(max_digits)s, %(decimal_places)s)",
    "AutoField" := "int",
    "BigAutoField" := "bigint",
    "BigIntegerField" := "bigint",
    "BinaryField" := "varbinary(%(max_length)s)",
    "BooleanField" := "bit",
    "CharField" := "nvarchar(%(max_length)s)",
    "CommaSeparatedIntegerField" := "nvarchar(%(max_length)s)",
    "DateField" := "date",
    "DateTimeField" := "datetime2",
    "DateTimeOffsetField" := "datetimeoffset",
    "DecimalField" := "numeric(%(max_digits)s, %(decimal_places)s)",
    "DurationField" := "bigint",
    "FileField" := "nvarchar(%(max_length)s)",
    "FilePathField" := "nvarchar(%(max_length)s)",
    "FloatField" := "double precision",
    "IntegerField" := "int",
    "IPAddressField" := "nvarchar(15)",
    "LegacyDateField" := "datetime",
    "LegacyDateTimeField" := "datetime",
    "LegacyTimeField" := "time",
    "GenericIPAddressField" := "nvarchar(39)",
    "JSONField" := "nvarchar(max)",
    "NCharField" := "nchar(%(max_length)s)",
    "NewDateField" := "date",
    "NewDateTimeField" := "datetime2",
    "NewTimeField" := "time",
    "NullBooleanField" := "bit",
    "OneToOneField" := "int",
    "PositiveIntegerField" := "int",
    "PositiveSmallIntegerField" := "smallint",
    "PositiveBigIntegerField" := "bigint",
    "SlugField" := "nvarchar(%(max_length)s)",
    "SmallAutoField" := "smallint",
    "SmallIntegerField" := "smallint",
    "TextField" := "nvarchar(max)",
    "TimeField" := "time",
    "URLField" := "nvarchar(%(max_length)s)",
    "UUIDField" := "char(32)"
  ]

  /** `auto_field_types`. */
  const AutoFieldTypes: set<string> := {"AutoField", "BigAutoField", "AutoDecimalField"}

  /** `DatabaseWrapper.data_types_suffix`. */
  const DataTypesSuffix: map<string, string> := map[
    "AutoDecimalField" := "IDENTITY (1, 1)",
    "AutoField" := "IDENTITY (1, 1)",
    "BigAutoField" := "IDENTITY (1, 1)",
    "SmallAutoField" := "IDENTITY (1, 1)"
  ]

  /** `DatabaseWrapper.data_type_check_constraints`. */
  const DataTypeCheckConstraints: map<string, string> := map[
    "JSONField" := "(ISJSON (\"%(column)s\") = 1)",
    "PositiveIntegerField" := "[%(column)s] >= 0",
    "PositiveSmallIntegerField" := "[%(column)s] >= 0",
    "PositiveBigIntegerField" := "[%(column)s] >= 0"
  ]

  /** Every suffix and every check constraint belongs to a known column type, and every auto field is an identity. */
  lemma TablesConsistent()
    ensures DataTypesSuffix.Keys <= DataTypes.Keys
    ensures DataTypeCheckConstraints.Keys <= DataTypes.Keys
    ensures forall t :: t in AutoFieldTypes ==> t in DataTypesSuffix && DataTypesSuffix[t] == "IDENTITY (1, 1)"
  {
  }

  /** The class-level `DatabaseWrapper.operators`. */
  const Operators: map<string, string> := map[
    "exact" := "= %s",
    "iexact" := "= UPPER(%s)",
    "contains" := "LIKE %s ESCAPE '\\'",
    "icontains" := "LIKE UPPER(%s) ESCAPE '\\'",
    "gt" := "> %s",
    "gte" := ">= %s",
    "lt" := "< %s",
    "lte" := "<= %s",
    "startswith" := "LIKE %s ESCAPE '\\'",
    "endswith" := "LIKE %s ESCAPE '\\'",
    "istartswith" := "LIKE UPPER(%s) ESCAPE '\\'",
    "iendswith" := "LIKE UPPER(%s) ESCAPE '\\'"
  ]

  /** The lookups whose operator is a LIKE pattern. */
  const LikeLookups: set<string> :=
    {"contains", "icontains", "startswith", "endswith", "istartswith", "iendswith"}

  /** One operator template after the collation rewrite of `__init__`. */
  function Collated(sql: string, collation: string): string
  {
    if StartsWith(sql, "LIKE ") then sql + " COLLATE " + collation else sql
  }

  /**
   * The loop of `__init__` over a copy of the operator table: it gathers a
   * `COLLATE` variant of every LIKE template, then merges them into the copy.
   * The key set stays the same, and only LIKE templates change.
   */
  method CollateOperators(ops: map<string, string>, collation: string) returns (r: map<string, string>)
    ensures r.Keys == ops.Keys
    ensures forall op :: op in ops ==> r[op] == Collated(ops[op], collation)
  {
    var collated: map<string, string> := map[];
    var todo := ops.Keys;
    while todo != {}
      invariant todo <= ops.Keys
      invariant collated.Keys <= ops.Keys - todo
      invariant forall op :: op in ops.Keys - todo && StartsWith(ops[op], "LIKE ") ==>
        op in collated && collated[op] == ops[op] + " COLLATE " + collation
      invariant forall op :: op in collated ==> StartsWith(ops[op], "LIKE ")
      decreases todo
    {
      var op :| op in todo;
      var sql := ops[op];
      if StartsWith(sql, "LIKE ") {
        collated := collated[op := sql + " COLLATE " + collation];
      }
      todo := todo - {op};
    }
    r := ops + collated;
  }

  /**
   * On the class table, the rewrite changes exactly the six LIKE lookups,
   * each by appending ` COLLATE <collation>`.
   */
  lemma CollationOnClassOperators(collation: string)
    ensures forall op :: op in Operators ==>
      (op in LikeLookups <==> Collated(Operators[op], collation) != Operators[op])
    ensures forall op :: op in LikeLookups ==>
      op in Operators && Collated(Operators[op], collation) == Operators[op] + " COLLATE " + collation
  {
    var like := "LIKE %s ESCAPE '\\'";
    var ilike := "LIKE UPPER(%s) ESCAPE '\\'";
    assert "LIKE " <= like && "LIKE " <= ilike;
    forall op | op in Operators
      ensures op in LikeLookups <==> StartsWith(Operators[op], "LIKE ")
    {
      if op in LikeLookups {
        assert Operators[op] == like || Operators[op] == ilike;
      } else {
        assert Operators[op][0] in "=<>";
      }
    }
  }

  /**
   * The override `_cursor` applies for a 2005 server: DateField,
   * DateTimeField and TimeField all become `datetime`.
   */
  function LegacyDataTypes(dt: map<string, string>): (r: map<string, string>)
    ensures r.Keys == dt.Keys + {"DateField", "DateTimeField", "TimeField"}
    ensures forall k :: k in dt && k !in {"DateField", "DateTimeField", "TimeField"} ==> r[k] == dt[k]
    ensures r["DateField"] == "datetime" && r["DateTimeField"] == "datetime" && r["TimeField"] == "datetime"
  {
    dt["DateField" := "datetime"]["DateTimeField" := "datetime"]["TimeField" := "datetime"]
  }

  /**
   * On a table that already has the three temporal entries, none of them
   * `datetime`, the override changes those three and nothing else.
   */
  lemma LegacyOverrideChanges(dt: map<string, string>)
    requires forall k :: k in {"DateField", "DateTimeField", "TimeField"} ==> k in dt && dt[k] != "datetime"
    ensures LegacyDataTypes(dt).Keys == dt.Keys
    ensures forall k :: k in {"DateField", "DateTimeField", "TimeField"} ==> LegacyDataTypes(dt)[k] == "datetime"
    ensures forall k :: k in dt ==>
      (LegacyDataTypes(dt)[k] != dt[k] <==> k in {"DateField", "DateTimeField", "TimeField"})
  {
  }

  /**
   * The class table meets the condition of `LegacyOverrideChanges`: its
   * three temporal entries are `date`, `datetime2` and `time`, so the
   * override changes exactly those three on it.
   */
  lemma ClassTableTemporalEntries()
    ensures forall k :: k in {"DateField", "DateTimeField", "TimeField"} ==> k in DataTypes && DataTypes[k] != "datetime"
    ensures DataTypes["DateField"] == "date" && DataTypes["DateTimeField"] == "datetime2" && DataTypes["TimeField"] == "time"
  {
  }

  /** `_sql_server_versions`: major version number to release year. */
  const SqlServerVersions: map<int, int> := map[
    9 := 2005, 10 := 2008, 11 := 2012, 12 := 2014, 13 := 2016, 14 := 2017, 15 := 2019
  ]

  /**
   * The version lookup of `sql_server_version` on the `ProductVersion` the
   * server returned: the text before the first `.` is read with `int()`,
   * and a major version missing from the table is a `NotSupportedError`.
   * Bytes cannot be split on a text `.` (`TypeError`), and a value that is
   * neither bytes nor text has no `split` (`AttributeError`).
   */
  function SqlServerVersion(productVersion: Value): (r: Result<int>)
    ensures r.Ok? ==> productVersion.Str? && r.value in SqlServerVersions.Values
    ensures productVersion.Bytes? ==> r == Err(TypeError)
    ensures !productVersion.Str? && !productVersion.Bytes? ==> r == Err(AttributeError)
  {
    if productVersion.Bytes? then Err(TypeError)
    else if !productVersion.Str? then Err(AttributeError)
    else match PyInt(Str(BeforeDot(productVersion.s)))
      case Err(e) => Err(e)
      case Ok(major) =>
        if major in SqlServerVersions then Ok(SqlServerVersions[major]) else Err(NotSupportedError(major))
  }

  lemma {:induction false} BeforeDotOf(a: string, rest: string)
    requires '.' !in a
    ensures BeforeDot(a + "." + rest) == a
    decreases |a|
  {
    if a != "" {
      assert (a + "." + rest)[1..] == a[1..] + "." + rest;
      BeforeDotOf(a[1..], rest);
      assert [a[0]] + a[1..] == a;
    } else {
      assert a + "." + rest == "." + rest;
    }
  }

  /**
   * A product version `M.xxx` maps to a release year exactly when `M` is
   * between 9 and 15 (2005 to 2019); any other major version is refused.
   */
  lemma VersionOfMajor(major: int, rest: string)
    ensures var r := SqlServerVersion(Str(IntToString(major) + "." + rest));
      && (9 <= major <= 15 <==> r.Ok?)
      && (r.Ok? ==> r.value == SqlServerVersions[major])
      && (r.Err? ==> r.error == NotSupportedError(major))
  {
    var s := IntToString(major);
    assert '.' !in s by {
      assert '.' !in NatToString(if major < 0 then -major else major);
    }
    BeforeDotOf(s, rest);
    PyIntOfDecimal(major);
  }

  /** The release years of the version table increase with the major version. */
  lemma VersionYearsOrdered()
    ensures forall a, b :: a in SqlServerVersions && b in SqlServerVersions && a < b ==>
      SqlServerVersions[a] < SqlServerVersions[b]
    ensures forall m :: m in SqlServerVersions ==> (SqlServerVersions[m] <= 2005 <==> m == 9)
  {
  }

  /**
   * The lookup `_cursor` consults: a server reporting `M.xxx` gets the legacy
   * column types (a release of 2005 or older) exactly when `M` is 9.
   */
  lemma LegacyOnlyForMajorNine(major: int, rest: string)
    ensures var r := SqlServerVersion(Str(IntToString(major) + "." + rest));
      r.Ok? && r.value <= 2005 <==> major == 9
  {
    VersionOfMajor(major, rest);
    VersionYearsOrdered();
  }

  /** A later major version never looks up an earlier release year. */
  lemma VersionLookupOrdered(a: int, restA: string, b: int, restB: string)
    requires a < b
    ensures var ra := SqlServerVersion(Str(IntToString(a) + "." + restA));
      var rb := SqlServerVersion(Str(IntToString(b) + "." + restB));
      ra.Ok? && rb.Ok? ==> ra.value < rb.value
  {
    VersionOfMajor(a, restA);
    VersionOfMajor(b, restB);
    VersionYearsOrdered();
  }

  /** `is_sql_azure` as `init_connection_state` sets it: EngineEdition in [6, 8, 9, 11]. */
  predicate IsSqlAzure(engineEdition: Value)
  {
    engineEdition in [Int(6), Int(8), Int(9), Int(11)]
  }

  /** `EDITION_AZURE_SQL_DB`. */
  const EditionAzureSqlDb := 5

  /** `to_azure_sql_db`: EngineEdition equals `EDITION_AZURE_SQL_DB`. */
  predicate ToAzureSqlDb(engineEdition: Value)
  {
    engineEdition == Int(EditionAzureSqlDb)
  }
}

=== FILE: text.dfy ===
/**
 * Python string operations used by the SQL Server adapter, written out on
 * `seq<char>`: prefix and substring tests (`startswith`, `in`), `replace`,
 * `strip`, `join`, and the decimal conversions performed by `str(int)` and
 * `int(str)`.
 */
module Text {

  /** Python's `s.startswith(p)`. */
  predicate StartsWith(s: string, p: string)
  {
    p <= s
  }

  /** Python's `s.endswith(p)`. */
  predicate EndsWith(s: string, p: string)
  {
    |p| <= |s| && s[|s| - |p|..] == p
  }

  /** `sub` occurs in `s` starting at index `i`. */
  predicate OccursAt(s: string, sub: string, i: nat)
  {
    i + |sub| <= |s| && s[i..i + |sub|] == sub
  }

  /** Python's `sub in s` for two strings. */
  predicate Contains(s: string, sub: string)
    decreases |s|
  {
    if sub <= s then true
    else if |s| == 0 then false
    else Contains(s[1..], sub)
  }

  lemma OccursShift(s: string, sub: string, i: nat)
    requires |s| > 0 && i > 0
    ensures OccursAt(s, sub, i) <==> OccursAt(s[1..], sub, i - 1)
  {
    if i + |sub| <= |s| {
      assert s[1..][i - 1..i - 1 + |sub|] == s[i..i + |sub|];
    }
  }

  lemma {:induction false} ContainsIff(s: string, sub: string)
    ensures Contains(s, sub) <==> exists i: nat :: OccursAt(s, sub, i)
    decreases |s|
  {
    if sub <= s {
      assert OccursAt(s, sub, 0);
    } else if |s| == 0 {
      assert |sub| > 0;
    } else {
      ContainsIff(s[1..], sub);
      if Contains(s[1..], sub) {
        var i: nat :| OccursAt(s[1..], sub, i);
        OccursShift(s, sub, i + 1);
      } else {
        forall i: nat ensures !OccursAt(s, sub, i) {
          if i > 0 {
            OccursShift(s, sub, i);
          }
        }
      }
    }
  }

  /** Every character of a substring occurs in the string. */
  lemma ContainsKeepsChars(s: string, sub: string, j: nat)
    requires Contains(s, sub) && j < |sub|
    ensures sub[j] in s
  {
    ContainsIff(s, sub);
    var i: nat :| OccursAt(s, sub, i);
    assert sub[j] == s[i + j];
  }

  /** A two-character substring of `a + b` lies in `a`, in `b`, or across the join. */
  lemma {:induction false} ContainsConcat(a: string, b: string, sub: string)
    requires |sub| == 2 && Contains(a + b, sub)
    ensures Contains(a, sub) || Contains(b, sub) || (|a| > 0 && |b| > 0 && [a[|a| - 1], b[0]] == sub)
  {
    var ab := a + b;
    ContainsIff(ab, sub);
    var i: nat :| OccursAt(ab, sub, i);
    assert sub[0] == ab[i] && sub[1] == ab[i + 1];
    if i + 2 <= |a| {
      assert a[i..i + 2] == [ab[i], ab[i + 1]];
      assert OccursAt(a, sub, i);
      ContainsIff(a, sub);
    } else if i >= |a| {
      var j: nat := i - |a|;
      assert b[j..j + 2] == [ab[i], ab[i + 1]];
      assert OccursAt(b, sub, j);
      ContainsIff(b, sub);
    }
  }

  /**
   * Python's `s.replace(pat, rep)`: every non-overlapping occurrence of `pat`,
   * found scanning left to right, is replaced by `rep`.
   */
  function Replace(s: string, pat: string, rep: string): string
    requires |pat| > 0
    decreases |s|
  {
    if pat <= s then rep + Replace(s[|pat|..], pat, rep)
    else if |s| == 0 then []
    else [s[0]] + Replace(s[1..], pat, rep)
  }

  /** The number of replacements `Replace(s, pat, rep)` performs. */
  function Count(s: string, pat: string): nat
    requires |pat| > 0
    decreases |s|
  {
    if pat <= s then 1 + Count(s[|pat|..], pat)
    else if |s| == 0 then 0
    else Count(s[1..], pat)
  }

  /** Distributing `(1 + c) * d`, the one nonlinear step of `ReplaceLength`. */
  lemma MulSucc(c: int, d: int)
    ensures (1 + c) * d == d + c * d
  {
  }

  lemma {:induction false} ReplaceLength(s: string, pat: string, rep: string)
    requires |pat| > 0
    ensures |Replace(s, pat, rep)| == |s| - Count(s, pat) * (|pat| - |rep|)
    decreases |s|
  {
    if pat <= s {
      var c, d := Count(s[|pat|..], pat), |pat| - |rep|;
      ReplaceLength(s[|pat|..], pat, rep);
      assert |Replace(s, pat, rep)| == |rep| + |s[|pat|..]| - c * d;
      MulSucc(c, d);
    } else if |s| > 0 {
      ReplaceLength(s[1..], pat, rep);
    }
  }

  /** Nothing is replaced exactly when the pattern does not occur. */
  lemma {:induction false} CountZeroIff(s: string, pat: string)
    requires |pat| > 0
    ensures Count(s, pat) == 0 <==> !Contains(s, pat)
    decreases |s|
  {
    if pat <= s {
    } else if |s| > 0 {
      CountZeroIff(s[1..], pat);
    }
  }

  lemma {:induction false} ReplaceAbsent(s: string, pat: string, rep: string)
    requires |pat| > 0 && !Contains(s, pat)
    ensures Replace(s, pat, rep) == s
    decreases |s|
  {
    if |s| > 0 {
      ReplaceAbsent(s[1..], pat, rep);
    }
  }

  /**
   * Replacing the one occurrence of a two-character pattern: the text
   * around it is left alone when the pattern does not occur in it, nor
   * across its left edge.
   */
  lemma {:induction false} ReplaceAround(prefix: string, suffix: string, pat: string, rep: string)
    requires |pat| == 2
    requires !Contains(prefix + [pat[0]], pat) && !Contains(suffix, pat)
    ensures Replace(prefix + pat + suffix, pat, rep) == prefix + rep + suffix
    decreases |prefix|
  {
    var s := prefix + pat + suffix;
    if prefix == [] {
      assert s == pat + suffix && s[2..] == suffix;
      ReplaceAbsent(suffix, pat, rep);
    } else {
      var edge := prefix + [pat[0]];
      assert s[0] == edge[0] && s[1] == edge[1];
      assert !(pat <= edge);
      assert !(pat <= s);
      assert edge[1..] == prefix[1..] + [pat[0]];
      assert !Contains(edge[1..], pat);
      assert s[1..] == prefix[1..] + pat + suffix;
      ReplaceAround(prefix[1..], suffix, pat, rep);
      assert Replace(s, pat, rep) == [s[0]] + Replace(s[1..], pat, rep);
      assert prefix == [prefix[0]] + prefix[1..];
    }
  }

  /** Replacing the doubled character by one character undoes doubling it. */
  lemma {:induction false} UndoubleDouble(s: string, c: char)
    ensures Replace(Replace(s, [c], [c, c]), [c, c], [c]) == s
    decreases |s|
  {
    if |s| > 0 {
      var tail := Replace(s[1..], [c], [c, c]);
      UndoubleDouble(s[1..], c);
      if s[0] == c {
        assert [c] <= s;
        assert Replace(s, [c], [c, c]) == [c, c] + tail;
        assert [c, c] <= [c, c] + tail;
        assert ([c, c] + tail)[2..] == tail;
      } else {
        assert !([c] <= s);
        assert Replace(s, [c], [c, c]) == [s[0]] + tail;
        assert ([s[0]] + tail)[0] != c;
        assert ([s[0]] + tail)[1..] == tail;
      }
    }
  }

  /** Python's `s.lstrip(c)` for a single character `c`. */
  function LStrip(s: string, c: char): string
    decreases |s|
  {
    if |s| > 0 && s[0] == c then LStrip(s[1..], c) else s
  }

  /** Python's `s.rstrip(c)` for a single character `c`. */
  function RStrip(s: string, c: char): string
    decreases |s|
  {
    if |s| > 0 && s[|s| - 1] == c then RStrip(s[..|s| - 1], c) else s
  }

  /** Python's `s.strip(c)` for a single character `c`. */
  function Strip(s: string, c: char): string
  {
    RStrip(LStrip(s, c), c)
  }

  lemma {:induction false} LStripShape(s: string, c: char)
    ensures exists k: nat :: k <= |s| && LStrip(s, c) == s[k..] && (forall j :: 0 <= j < k ==> s[j] == c)
    ensures |LStrip(s, c)| > 0 ==> LStrip(s, c)[0] != c
    decreases |s|
  {
    if |s| > 0 && s[0] == c {
      LStripShape(s[1..], c);
      var k: nat :| k <= |s[1..]| && LStrip(s[1..], c) == s[1..][k..] && (forall j :: 0 <= j < k ==> s[1..][j] == c);
      assert s[1..][k..] == s[k + 1..];
      assert forall j :: 0 <= j < k + 1 ==> s[j] == c by {
        forall j | 0 <= j < k + 1 ensures s[j] == c {
          if j > 0 { assert s[j] == s[1..][j - 1]; }
        }
      }
    } else {
      assert s[0..] == s;
    }
  }

  /** Stripping at the right end never changes the first character of a non-blank string. */
  lemma {:induction false} RStripKeepsHead(s: string, c: char)
    requires |s| > 0 && s[0] != c
    ensures |RStrip(s, c)| > 0 && RStrip(s, c)[0] == s[0]
    decreases |s|
  {
    if s[|s| - 1] == c {
      RStripKeepsHead(s[..|s| - 1], c);
    }
  }

  /** Python's `sep.join(parts)`. */
  function Join(sep: string, parts: seq<string>): string
  {
    if |parts| == 0 then ""
    else if |parts| == 1 then parts[0]
    else parts[0] + sep + Join(sep, parts[1..])
  }

  predicate IsDigit(c: char)
  {
    '0' <= c <= '9'
  }

  predicate AllDigits(s: string)
  {
    forall i :: 0 <= i < |s| ==> IsDigit(s[i])
  }

  function DigitChar(d: nat): (c: char)
    requires d < 10
    ensures IsDigit(c) && (c as int) - ('0' as int) == d
  {
    (('0' as int) + d) as char
  }

  /** The decimal digits of `n`, as `str(n)` writes them. */
  function NatToString(n: nat): (s: string)
    ensures |s| > 0 && AllDigits(s)
    decreases n
  {
    if n < 10 then [DigitChar(n)] else NatToString(n / 10) + [DigitChar(n % 10)]
  }

  /** Python's `str(n)` for an integer. */
  function IntToString(n: int): string
  {
    if n < 0 then "-" + NatToString(-n) else NatToString(n)
  }

  /** The value of a string of decimal digits. */
  function DigitsValue(s: string): nat
    requires AllDigits(s)
    decreases |s|
  {
    if |s| == 0 then 0
    else 10 * DigitsValue(s[..|s| - 1]) + ((s[|s| - 1] as int) - ('0' as int))
  }

  /**
   * Python's `int(s)` for a string: an optional sign followed by one or more
   * decimal digits; anything else is a `ValueError`, represented by `None`.
   */
  function ParseInt(s: string): Option<int>
  {
    if |s| > 1 && s[0] == '-' && AllDigits(s[1..]) then Some(-(DigitsValue(s[1..]) as int))
    else if |s| > 1 && s[0] == '+' && AllDigits(s[1..]) then Some(DigitsValue(s[1..]))
    else if |s| > 0 && AllDigits(s) then Some(DigitsValue(s))
    else None
  }

  datatype Option<+T> = None | Some(value: T)

  lemma {:induction false} DigitsValueOfNat(n: nat)
    ensures DigitsValue(NatToString(n)) == n
    decreases n
  {
    var s := NatToString(n);
    if n >= 10 {
      DigitsValueOfNat(n / 10);
      assert s[..|s| - 1] == NatToString(n / 10);
    }
  }

  /** `int(str(n)) == n`. */
  lemma IntStringRoundTrip(n: int)
    ensures ParseInt(IntToString(n)) == Some(n)
  {
    if n < 0 {
      var s := "-" + NatToString(-n);
      assert s[1..] == NatToString(-n);
      DigitsValueOfNat(-n);
    } else {
      DigitsValueOfNat(n);
      var s := NatToString(n);
      assert s[0] != '-' && s[0] != '+' by { assert IsDigit(s[0]); }
    }
  }

  /** The text before the first `.`, as `s.split('.')[0]` gives it. */
  function BeforeDot(s: string): (r: string)
    ensures r <= s && '.' !in r
    ensures |r| < |s| ==> s[|r|] == '.'
    decreases |s|
  {
    if |s| == 0 || s[0] == '.' then "" else [s[0]] + BeforeDot(s[1..])
  }
}

=== FILE: values.dfy ===
/**
 * The Python values that cross the adapter's boundaries (settings entries,
 * query parameters, fields of fetched rows, exception arguments) and the
 * exceptions the adapter raises or lets through.
 */
module PyValues {
  import opened Text

  newtype byte = x: int | 0 <= x < 256

  /** A Python value, as far as the adapter distinguishes between values. */
  datatype Value =
    | Null                 // None
    | Bool(b: bool)        // True / False
    | Int(n: int)          // int
    | Str(s: string)       // str
    | Bytes(data: seq<byte>)  // bytes
    | Other(id: nat)       // any other object (float, datetime, Decimal, ...)

  /** Python truthiness of a value; an `Other` object is truthy. */
  predicate Truthy(v: Value)
  {
    match v
    case Null => false
    case Bool(b) => b
    case Int(n) => n != 0
    case Str(s) => s != ""
    case Bytes(d) => d != []
    case Other(_) => true
  }

  /** The exceptions raised by, or passed through, the adapter. */
  datatype Error =
    | ImproperlyConfigured(msg: string)
    | NotSupportedError(major: int)
    | ValidationError(msg: string)
    | TypeError
    | ValueError
    | AttributeError
    | UnicodeDecodeError
    | DriverError(kind: DriverErrorKind, arg0: Value)

  /**
   * The class of an exception raised by the driver: a DB-API `Database.Error`
   * (including its `ProgrammingError` subclass), a bare `MSSQLDatabaseException`,
   * or anything else.
   */
  datatype DriverErrorKind = DatabaseError | MssqlException | OtherException

  datatype Result<+T> = Ok(value: T) | Err(error: Error)

  /** The bytes of an ASCII string, as `int()` reads a `bytes` argument. */
  function AsciiText(data: seq<byte>): string
  {
    seq(|data|, i requires 0 <= i < |data| => (data[i] as int) as char)
  }

  /**
   * Python's built-in `int(v)`: booleans count as 0 and 1, text must be an
   * optionally signed decimal literal (`ValueError` otherwise), and `None` or
   * an object without an integer conversion is a `TypeError`.
   */
  function PyInt(v: Value): (r: Result<int>)
    ensures v.Int? ==> r == Ok(v.n)
    ensures v.Null? ==> r == Err(TypeError)
    ensures r.Err? ==> r.error in {TypeError, ValueError}
  {
    match v
    case Null => Err(TypeError)
    case Bool(b) => Ok(if b then 1 else 0)
    case Int(n) => Ok(n)
    case Str(s) => (match ParseInt(s) case Some(n) => Ok(n) case None => Err(ValueError))
    case Bytes(d) => (match ParseInt(AsciiText(d)) case Some(n) => Ok(n) case None => Err(ValueError))
    case Other(_) => Err(TypeError)
  }

  /** `int(str(n)) == n` for every Python integer. */
  lemma PyIntOfDecimal(n: int)
    ensures PyInt(Str(IntToString(n))) == Ok(n)
  {
    IntStringRoundTrip(n);
  }
}
